=== FILE: README.md ===
# Connect Four plugin: rules engine, renderer and game manager in Dafny

This project models the core of a Connect Four plugin for a chat server (written in Go) and
proves properties of it:

- **Board** (`boards.dfy`, `valid_moves.dfy`): a column-major 7 x 6 grid of ints, where row 0
  is the top row, 0 is an empty cell and 1 and 2 are the two players' markers. It covers
  gravity moves with their range and full-column errors, the eight-direction
  four-in-a-row scan `checkWin`/`HasWon`, the draw test and the list of playable columns.
- **Game** (`games.dfy`, `constants.dfy`): the game record and the operations on it: the
  first turn, turn alternation, the last-move column, the outcome after a move (a win
  overrides a draw), resignation, and the turn-player lookup. Outcome codes are integers,
  and the win codes equal the player markers.
- **Renderer** (`images.dfy`, `decimal.dfy`): `EncodeBoard` as a pure function from
  (board, last move) to the list of drawing primitives handed to the SVG canvas. The list is
  one background rectangle, then one block per column from left to right. A block is the
  column's six discs top to bottom, then its numbered label. In the last-move column the
  black marker comes right after the disc of the topmost piece.
- **Helpers of the HTTP layer** (`api.dfy`): the `#rgb`/`#rrggbb` colour parser
  `ParseHexColor` with its digit closure, and the trailing-slash trimming of
  `getPluginURL`.
- **Game manager** (`game_manager.dfy`): the decision logic of `CreateGame`, `Move`,
  `Resign`, `gameToPost`, `CanMove`, `IsPlayingGame` and `ValidMovements`. It works over an
  abstract store: a map from key to stored game and a map from user id to username. The
  results of the plugin-API calls (direct channel, created post) are passed in as values.

All operations are pure functions returning `Result`/`Option` values. Apart from the cases
listed under "Left out", Go's runtime panics (an index out of range, a nil user
dereference) become explicit error values where an input can reach them. Those cases are
the column-8 panic of the board's guard, which the model reports as an error (see
"Findings"), and the panics on an empty string or a malformed board, which a precondition
excludes.

## Behaviour worth knowing

- **Moves after the game has ended.** `Game.Move` (server/connect4/game.go:40-60) never
  reads the result. A finished or resigned game still accepts any column the board accepts
  (`Games.MoveIgnoresOutcome`).
- **Resigning a finished game.** `Game.Resign` (server/connect4/game.go:62-73) overwrites
  any earlier outcome with the resignation (`Games.Resign`).
- **The (0,0) break in `checkWin`.** The `dx == 0 && dy == 0` break
  (server/connect4/board.go:39-41) only leaves the distance loop. All eight directions are
  examined (`Boards.DirectionsSpec`, `Boards.CheckWin`).
- **Column 8.** The range guard of `Move` (server/connect4/board.go:70) lets column 8
  through to an out-of-range index (see Findings). The rest of the model uses the
  corrected guard, and "Left out" names the members this affects.

## Model

| member | source | states |
|---|---|---|
| Constants.OutcomeCodesDistinct | server/connect4/constants.go:3-10 | the six outcome codes are pairwise distinct, and neither the draw code nor the no-outcome code is a player marker |
| Constants.OutcomeCodesMatchMarkers | server/connect4/constants.go:5-12 | a win code is the winner's marker and a resign code is the resigner's marker negated, so every marker and its negation are outcome codes |
| Boards.NewBoard | server/connect4/board.go:5-15 | the new board has 7 columns of 6 cells, every cell is empty, and gravity holds |
| Boards.LandingRow | server/connect4/board.go:78-84 | a piece lands in an empty row whose rows above are all empty and whose row below is occupied or off the board |
| Boards.MoveAsWritten | server/connect4/board.go:68-87 | with the range guard as written, a move that succeeds was into a column in 1..7 with a free top cell, and it changes exactly the landing cell |
| Boards.Move | server/connect4/board.go:68-87 | "Not such column" exactly for columns outside 1..7; "Column full" exactly when the top cell is occupied; otherwise `player` is written into the landing cell and no other cell changes |
| Boards.ColumnEightPassesGuard | server/connect4/board.go:69-74 | column 8 passes the written guard and reaches the out-of-range index on every board, while the corrected guard rejects it |
| Boards.MoveAsWrittenAgreesElsewhere | server/connect4/board.go:70 | the written and the corrected guard give the same result for every column except 8 |
| Boards.MoveKeepsGravity | server/connect4/board.go:78-85 | under gravity the landing cell is the lowest free cell of the column; a move keeps gravity and adds exactly one piece |
| Boards.MoveKeepsMarkers | server/connect4/board.go:85 | a marker's move leaves every cell empty or a marker |
| Boards.RunFromSpec | server/connect4/board.go:38-53 | the distance loop reports a win exactly when the direction is not (0,0) and the cells at distance 1, 2 and 3 are on the board and hold the player |
| Boards.DirectionsSpec | server/connect4/board.go:36-55 | the two direction loops, resumed at any pair, report a win exactly when a direction at or after the resume point in loop order carries such a line; the (0,0) break skips no direction |
| Boards.CheckWin | server/connect4/board.go:35-57 | `checkWin(i, j, p)` holds exactly when one of the eight directions carries three more cells of `p` |
| Boards.ScanFromSpec | server/connect4/board.go:22-32 | the cell scan resumed at a cell with no winning start before it returns 0 exactly when there is no four-in-a-row, and otherwise the owner of the first winning start |
| Boards.HasWon | server/connect4/board.go:21-33 | the result is 0 exactly when no four-in-a-row exists; otherwise it is the owner of the first winning start in column-major, top-down order |
| Boards.HasWonIsMarker | server/connect4/board.go:21-33 | on a board of markers the winner found is 0 or a marker |
| Boards.CheckDraw | server/connect4/board.go:59-66 | the draw test holds exactly when every column's top cell is occupied, which under gravity means the board is full |
| Boards.HasFinished | server/connect4/board.go:17-19 | a board is finished exactly when every top cell is occupied or a four-in-a-row exists |
| Boards.NewBoardUndecided | server/connect4/board.go:5-15 | the empty board has no winner, is neither drawn nor finished, and holds no piece |
| Boards.BottomFourOfColumnOneWins | server/connect4/board.go:21-57 | four Player1 pieces at the bottom of column 1 make Player1 the winner |
| ValidMoves.ValidFrom | server/connect4/valid.go:5-9 | the loop from column index k collects, in strictly ascending order, exactly the open columns above k |
| ValidMoves.GetValidMovements | server/connect4/valid.go:3-11 | the result is exactly the 1-based columns whose top cell is free, strictly ascending, each in 1..7, at most 7, and empty exactly when every top cell is occupied |
| ValidMoves.ValidMovementsAccepted | server/connect4/valid.go:5-8 | a column is listed exactly when the board accepts a move into it, and a listed-out column in 1..7 is refused as full |
| ValidMoves.NoValidMovementIffDraw | server/connect4/valid.go:6 | no column is playable exactly when the draw test holds |
| ValidMoves.NewBoardAllColumnsValid | server/connect4/valid.go:3-11 | all seven columns are playable on a fresh board |
| Games.NewGame | server/connect4/game.go:11-22 | a new game has an empty board, no last move, no outcome and no post id, and the random draw decides which marker moves first |
| Games.GoRem | server/connect4/game.go:46 | Go's remainder goes with the quotient truncated toward zero: the dividend is the divisor times that quotient plus the remainder, and the remainder is non-negative for a non-negative dividend and non-positive otherwise |
| Games.NextTurn | server/connect4/game.go:46 | `(Turn % 2) + 1` swaps the two markers; only a negative odd turn, which a decoded game could hold, yields 0 |
| Games.GetTurnPlayer | server/connect4/game.go:32-38 | the turn player is one of the two seats, and the first seat exactly when the turn is Player1 (when the seats differ); `Games.TurnAlternates` shows it swaps seats after each move |
| Games.Outcome | server/connect4/game.go:28-30 | the stored result; `Games.MoveOutcome`, `Games.Resign` and `GameManager.GameToPost` state what it holds and how it is read |
| Games.GetMetadata | server/connect4/game.go:93-95 | channel id, post id and the two player ids; `Games.SetPostId` states that only the post id changes there |
| Games.ValidMovements | server/connect4/game.go:97-99 | exactly the columns in 1..7 whose top cell is free |
| Games.SetPostId | server/connect4/game.go:24-26 | the metadata afterwards carries the new post id, and board, turn, last move and result are untouched |
| Games.Move | server/connect4/game.go:40-60 | a move fails exactly when the board refuses the column, with the board's error; otherwise the board takes the move, the turn flips, the column is recorded, identity fields stay, and the result becomes the winner, else the draw code on a drawn board, else stays |
| Games.Resign | server/connect4/game.go:62-73 | a marker's resignation succeeds and stores that marker negated as the result, overwriting any earlier outcome; any other argument is refused |
| Games.MoveOutcome | server/connect4/game.go:49-57 | after a move, a four-in-a-row makes the owner of the first winning start the result, a full board without one is a draw, and otherwise the result stays |
| Games.WinOverridesDraw | server/connect4/game.go:49-57 | a winning move on a valid game is recorded as a win, never as a draw, even when it fills the board |
| Games.MoveIgnoresOutcome | server/connect4/game.go:40-60 | the stored result decides neither whether a move is accepted nor the board it yields: a finished game still takes every playable column |
| Games.TurnAlternates | server/connect4/game.go:32-47 | on a valid game the turn changes after every accepted move, and the turn player becomes the other seat |
| Games.MovePreservesValid | server/connect4/game.go:40-60 | a move keeps the game valid (7 x 6 shape, gravity, markers only, a marker's turn, an outcome code) and adds one piece |
| Games.ResignPreservesValid | server/connect4/game.go:62-73 | a resignation keeps the game valid and changes neither the board nor the identity fields |
| Games.WinnerIsMover | server/connect4/game.go:49-57 | a move that completes the first four-in-a-row makes the player who moved the result |
| Decimal.Itoa | server/connect4/image.go:56-57 | the decimal text of a natural number is a non-empty digit string with no leading zero that denotes the number |
| Images.Geometry | server/connect4/image.go:10-19 | the geometry constants are the source's derivations from the square size in integer arithmetic |
| Images.CellColor | server/connect4/image.go:40-49 | a cell is drawn in the empty colour exactly when it holds no player marker |
| Images.EncodeBoard | server/connect4/image.go:28-31 | the first primitive drawn is the board rectangle |
| Images.EncodeBoardBackground | server/connect4/image.go:30-31 | the board rectangle is 560 x 560 at the origin and is the only rectangle drawn |
| Images.EncodeBoardDiscs | server/connect4/image.go:33-50 | exactly 42 discs, column by column and top to bottom; disc (i, j) is centred at (80i+40, 80j+40) with radius 32 and filled with the cell's colour |
| Images.EncodeBoardLabels | server/connect4/image.go:56-57 | exactly 7 labels; label i sits at (80i+40, 520) and shows i+1 |
| Images.EncodeBoardMarks | server/connect4/image.go:51-54 | at most one marker: a black radius-16 circle on the topmost piece of the last-move column, and none when that column is out of range or empty |
| Images.ColumnBlock | server/connect4/image.go:33-57 | what one pass of the outer loop draws, by position: the six discs top to bottom, the marker right after the disc of the topmost piece when the column is the last-move column, and the label last |
| Images.CellsFromSplit | server/connect4/image.go:36-55 | the inner loop from any row draws the column's discs, with the marker inserted right after the disc of the first occupied row when it is still to be drawn |
| Images.EncodeBoardOrder | server/connect4/image.go:28-58 | the background, then the blocks of columns 0 to 6 in order: each marker follows the disc it covers, and label i follows column i's primitives and precedes column i+1's |
| Images.EncodeBoardLength | server/connect4/image.go:28-60 | nothing else is drawn: 50 primitives plus the markers |
| Images.Styles | server/connect4/image.go:21-52 | the style strings written are the board, player and empty fills of the source's colour constants, and black for the marker |
| Images.HighlightMarksLastPiece | server/connect4/image.go:51-54 | right after a move the marker sits on the piece just placed, in its landing row |
| Images.NoMarkerWithoutMove | server/connect4/image.go:51 | with no last move (0) no marker is drawn |
| Api.HexToByte | server/api.go:223-234 | a digit's value is below 16, and a byte that is not a hex digit counts as 0 |
| Api.Pair | server/api.go:238-240 | two digits combine to 16 * high + low with no byte wrap-around |
| Api.Single | server/api.go:242-244 | a short-form digit becomes 17 times its value with no byte wrap-around |
| Api.ParseHexColor | server/api.go:216-249 | alpha is always 255; no error exactly for `#` followed by 6 or 3 hex digits; a wrong prefix or length gives black; long form reads digit pairs, short form repeats digits; bad digits count as 0 |
| Api.ParseFormatRoundTrip | server/api.go:236-240 | parsing the six-digit form of any colour gives the colour back, opaque, without error |
| Api.ShortFormDoublesDigits | server/api.go:236-244 | `#xyz` parses exactly like `#xxyyzz`, error included |
| Api.HexDigitCaseInsensitive | server/api.go:227-230 | an upper-case hex letter is a digit with the same value as its lower-case form |
| Api.PluginUrl | server/api.go:273-283 | the URL ends in "/plugins/" and the id; what precedes it is the site URL ("/" when none is configured) with exactly one trailing slash removed if present |
| Api.PluginUrlWithoutSite | server/api.go:275-278 | with no site URL the plugin URL is "/plugins/" and the id |
| Api.PluginUrlTrailingSlash | server/api.go:279-281 | a site URL with one trailing slash gives the same plugin URL as without it |
| Api.PluginUrlDoubleSlash | server/api.go:279-281 | only one slash is removed: a site URL ending in two slashes keeps one |
| GameManager.SaveGame | server/game_manager.go:124-127 | a game is stored under its channel id when both players' users resolve, and under the empty key otherwise; nothing else changes |
| GameManager.WinningSeat | server/game_manager.go:171-182 | the first seat wins exactly on a Player1 win or a Player2 resignation, the second seat exactly on a Player2 win or a Player1 resignation, and nobody otherwise |
| GameManager.Footer | server/game_manager.go:171-184 | a footer is written exactly for the five final outcome codes; it opens with "Player1" when the first seat won (by four in a row or by the other resigning), with "Player2" when the second seat won, and reads "Draw!" on a draw |
| GameManager.GameToPost | server/game_manager.go:129-189 | fails exactly when a player's user is missing; otherwise the post carries the ids and usernames, the name of the seat `GetTurnPlayer` picks (the second seat for any turn code other than 1), the Move and Resign buttons for the game's channel exactly while there is no outcome and no buttons after it, the footer `Footer` gives for the outcome, and the achievement for the winning seat only |
| GameManager.CreateGame | server/game_manager.go:44-67 | creation succeeds exactly when the channel opens, no running game is stored for it, both users resolve and the post is created; otherwise the first failing step gives its error (no channel, "still an active game", the missing user, the post not created); on success the new game with the created post id is saved, and the post sent is the one `GameToPost` renders for the new game |
| GameManager.Move | server/game_manager.go:69-87 | no stored game gives "no game started"; a user other than the turn player gives "it is not your turn"; a board error is passed on; only an accepted move saves the moved game |
| GameManager.Resign | server/game_manager.go:89-108 | no stored game or a missing user fails; a seated user resigns their seat (seat 1 checked first) and the game is saved; anyone else gets "you are not playing" |
| GameManager.IsPlayingGame | server/game_manager.go:224-233 | no stored game is false, and a stored game whose users do not resolve is the nil-user failure |
| GameManager.ValidMovements | server/game_manager.go:245-252 | no stored game gives nil; otherwise the result lists exactly the game's open columns |
| GameManager.CanMove | server/game_manager.go:215-222 | whether the user is the turn player of a stored game; `GameManager.CanMoveIsTurnGuard` states it is exactly the guard of `Move` |
| GameManager.CanMoveIsTurnGuard | server/game_manager.go:215-222 | `CanMove` holds exactly when `Move` gets past its game and turn checks |
| GameManager.MoveAcceptedIffValid | server/game_manager.go:69-87 | a move is saved exactly when the user may move and the column is among the game's valid movements |
| GameManager.ResignAcceptedIffPlaying | server/game_manager.go:89-108 | where both users resolve, resigning succeeds exactly when `IsPlayingGame` answers true |
| GameManager.ResignGrantsOpponent | server/game_manager.go:177-182 | after a resignation the post grants the achievement to the other seat and has no buttons |
| GameManager.WinningMoveGrantsMover | server/game_manager.go:171-176 | after the move completing the first four-in-a-row, the post grants the achievement to the user who moved and has no buttons |
| GameManager.CreateTwiceRefused | server/game_manager.go:50-55 | once a game is created and saved under its channel, creating another in that channel is refused as still active |
| GameManager.MoveKeepsStoreShaped | server/game_manager.go:85 | saving a moved game keeps every stored board 7 x 6, and keeps games under their own channel when the users resolve |
| GameManager.ResignKeepsStoreShaped | server/game_manager.go:106 | saving a resigned game keeps every stored board 7 x 6 and every game under its own channel |
| GameManager.CreateKeepsStoreShaped | server/game_manager.go:64-65 | saving a created game keeps every stored board 7 x 6 and every game under its own channel |

## Left out

- JSON persistence (`ToJSON`, `GameFromJSON`, server/connect4/game.go:75-91) is delegated to `encoding/json` and is not modelled. A stored entry that cannot be decoded reads as no game. Decoding checks neither the board shape nor the turn.
- Randomness: `rand.Intn(2)` in `NewGame` becomes the parameter `coin`. The random play of `handleTestGame` is not modelled.
- SVG output: the bytes svgo writes, and `Start`/`End`, are not modelled. The renderer's output is the list of primitives. `Game.EncodeBoard` and `PrintImage` only forward to it.
- HTTP routing, handlers, dialogs and the other URL builders of server/api.go are not modelled.
- Plugin-API calls are not modelled: `GetDirectChannel`, `CreatePost`, `KVGet`/`KVSet`, `GetUser`. Their results are parameters or entries of the abstract store. Errors from `KVSet` are ignored by the source, and the model's save always succeeds.
- Attachment details are not modelled: the formatted text, the image URL, and the action URL paths. The paths and the achievement name are defined in a file that is not part of this model. A post records the usernames, the buttons' kind and channel, the footer, and the achievement recipient.
- `GetGamePost` is `getGame` followed by `gameToPost` and is not modelled separately.
- Concurrency: the unlocked read-modify-write on the store is not modelled.
- server/manifest.go is generated configuration and is not modelled.
- Api.ParseHexColor: requires a non-empty string, because the source indexes `s[0]` and panics on "".
- Api.PluginUrl: requires a configured site URL to be non-empty, because the source indexes its last byte.
- Board operations require the 7 x 6 shape (`WellFormed`). Go would panic on a narrower board. Only a decoded game can hold one.
- GameManager.Move: requires the game stored under the id to have a 7 x 6 board, for the same reason.
- GameManager.ValidMovements: requires the game stored under the id to have a 7 x 6 board, for the same reason.
- Games.Move: builds on the corrected guard. For column 8 the source's `Game.Move` panics with an index out of range (server/connect4/board.go:70, reached from server/connect4/game.go:41). The model returns `NotSuchColumn` instead. `Boards.MoveAsWritten` and `Boards.ColumnEightPassesGuard` record the panic.
- GameManager.Move: for column 8 the source panics in the board's guard (reached from server/game_manager.go:80). The model reports `BoardRejected(NotSuchColumn)` instead, for the same reason as `Games.Move`.
- Images.EncodeBoard: requires the board to cover 7 x 6 cells, which is the indexing the source does.
- Decimal.Itoa: covers natural numbers only. The renderer only formats positive numbers.

## Findings

| source | as written | input that shows it | evidently intended | confidence | as-written member | corrected member |
|---|---|---|---|---|---|---|
| server/connect4/board.go:70 | the range guard rejects `columnIndex > columns` | column 8 on any board: index 7 passes the guard and `b[7]` is out of range, which panics | reject `columnIndex >= columns`, so column 8 is "Not such column" | high; not executed | Boards.MoveAsWritten | Boards.Move |

=== FILE: api.dfy ===
/** The two pure helpers of server/api.go the plugin's HTTP layer relies on: the hex colour
    parser `ParseHexColor` and the site-URL trimming of `getPluginURL`. */
module Api {
  import opened Results

  /** A Go string is a sequence of bytes. */
  type Byte = b: int | 0 <= b < 256

  /** `color.RGBA`: four 8-bit channels. */
  datatype RGBA = RGBA(r: Byte, g: Byte, b: Byte, a: Byte)

  datatype ParseError = InvalidFormat

  /** Go returns the colour together with the error: on failure the colour is still defined. */
  datatype Parsed = Parsed(color: RGBA, err: Option<ParseError>)

  const Hash: Byte := '#' as int

  predicate IsHexDigit(c: Byte) {
    || '0' as int <= c <= '9' as int
    || 'a' as int <= c <= 'f' as int
    || 'A' as int <= c <= 'F' as int
  }

  /** The `hexToByte` closure: the digit's value, or 0 for a byte that is not a hex digit
      (the closure records the error on the side; `ParseHexColor` below collects it). */
  function HexToByte(c: Byte): (v: Byte)
    ensures v < 16
    ensures !IsHexDigit(c) ==> v == 0
  {
    if '0' as int <= c <= '9' as int then c - '0' as int
    else if 'a' as int <= c <= 'f' as int then c - 'a' as int + 10
    else if 'A' as int <= c <= 'F' as int then c - 'A' as int + 10
    else 0
  }

  /** Go's `byte` arithmetic wraps modulo 256. */
  function ByteAdd(x: Byte, y: Byte): (r: Byte)
    ensures x + y < 256 ==> r == x + y
  {
    (x + y) % 256
  }

  function ByteMul17(x: Byte): (r: Byte)
    ensures x < 16 ==> r == 17 * x
  {
    (x * 17) % 256
  }

  function ByteShl4(x: Byte): (r: Byte)
    ensures x < 16 ==> r == 16 * x
  {
    (x * 16) % 256
  }

  /** `hexToByte(hi)<<4 + hexToByte(lo)` in byte arithmetic: two digits never wrap. */
  function Pair(hi: Byte, lo: Byte): (v: Byte)
    ensures v == 16 * HexToByte(hi) + HexToByte(lo)
  {
    ByteAdd(ByteShl4(HexToByte(hi)), HexToByte(lo))
  }

  /** `hexToByte(c) * 17` in byte arithmetic: a digit repeated, which never wraps either. */
  function Single(c: Byte): (v: Byte)
    ensures v == 17 * HexToByte(c)
  {
    ByteMul17(HexToByte(c))
  }

  predicate AllHex(s: seq<Byte>, from: int)
    requires 0 <= from <= |s|
  {
    forall k | from <= k < |s| :: IsHexDigit(s[k])
  }

  /** `ParseHexColor`. Alpha is always 0xff. A string not starting with `#` or of a length
      other than 7 or 4 yields black with the error; otherwise every digit is read, a
      non-digit counting as 0 and setting the error. An empty string makes Go index out of
      range, hence the precondition. */
  function ParseHexColor(s: seq<Byte>): (p: Parsed)
    requires |s| > 0
    ensures p.color.a == 255
    ensures p.err == None <==> s[0] == Hash && (|s| == 7 || |s| == 4) && AllHex(s, 1)
    ensures s[0] != Hash || (|s| != 7 && |s| != 4) ==> p.color == RGBA(0, 0, 0, 255)
    ensures s[0] == Hash && |s| == 7 ==>
      && p.color.r == 16 * HexToByte(s[1]) + HexToByte(s[2])
      && p.color.g == 16 * HexToByte(s[3]) + HexToByte(s[4])
      && p.color.b == 16 * HexToByte(s[5]) + HexToByte(s[6])
    ensures s[0] == Hash && |s| == 4 ==>
      && p.color.r == 17 * HexToByte(s[1])
      && p.color.g == 17 * HexToByte(s[2])
      && p.color.b == 17 * HexToByte(s[3])
  {
    var black := RGBA(0, 0, 0, 255);
    if s[0] != Hash then Parsed(black, Some(InvalidFormat))
    else
      var bad := if AllHex(s, 1) then None else Some(InvalidFormat);
      if |s| == 7 then Parsed(RGBA(Pair(s[1], s[2]), Pair(s[3], s[4]), Pair(s[5], s[6]), 255), bad)
      else if |s| == 4 then Parsed(RGBA(Single(s[1]), Single(s[2]), Single(s[3]), 255), bad)
      else Parsed(black, Some(InvalidFormat))
  }

  // ---------------------------------------------------------------------------
  // A reference encoder and the round trip

  /** The lower-case hex digit for a value below 16. */
  function Digit(v: int): (c: Byte)
    requires 0 <= v < 16
    ensures IsHexDigit(c) && HexToByte(c) == v
  {
    if v < 10 then '0' as int + v else 'a' as int + v - 10
  }

  /** `#rrggbb` in lower case. */
  function FormatHex(c: RGBA): (s: seq<Byte>)
    ensures |s| == 7 && s[0] == Hash
  {
    [Hash, Digit(c.r / 16), Digit(c.r % 16), Digit(c.g / 16), Digit(c.g % 16), Digit(c.b / 16), Digit(c.b % 16)]
  }

  /** Parsing the six-digit form of a colour gives the colour back, opaque. */
  lemma ParseFormatRoundTrip(c: RGBA)
    ensures ParseHexColor(FormatHex(c)) == Parsed(c.(a := 255), None)
  {
    var s := FormatHex(c);
    assert AllHex(s, 1) by {
      forall k | 1 <= k < 7 ensures IsHexDigit(s[k]) {
      }
    }
  }

  /** The short form repeats each digit: `#abc` parses exactly like `#aabbcc`, error included. */
  lemma ShortFormDoublesDigits(x: Byte, y: Byte, z: Byte)
    ensures ParseHexColor([Hash, x, y, z]) == ParseHexColor([Hash, x, x, y, y, z, z])
  {
    var short := [Hash, x, y, z];
    var long := [Hash, x, x, y, y, z, z];
    assert AllHex(short, 1) <==> AllHex(long, 1) by {
      if AllHex(long, 1) {
        assert IsHexDigit(long[1]) && IsHexDigit(long[3]) && IsHexDigit(long[5]);
      }
      if AllHex(short, 1) {
        assert IsHexDigit(short[1]) && IsHexDigit(short[2]) && IsHexDigit(short[3]);
      }
    }
  }

  /** Upper- and lower-case digits are read alike. */
  lemma HexDigitCaseInsensitive(c: Byte)
    requires 'a' as int <= c <= 'f' as int
    ensures IsHexDigit(c - 32) && HexToByte(c - 32) == HexToByte(c)
  {
  }

  // ---------------------------------------------------------------------------
  // getPluginURL

  const PluginsPath := "/plugins/"

  /** The URL of the plugin with id `id` under the configured site URL: a missing site URL
      stands for "/", and one trailing slash is dropped before "/plugins/<id>" is appended.
      An empty configured URL makes Go index out of range, hence the precondition. */
  function PluginUrl(siteUrl: Option<string>, id: string): (u: string)
    requires siteUrl.Some? ==> |siteUrl.value| > 0
    ensures |u| >= |PluginsPath + id| && u[|u| - |PluginsPath + id|..] == PluginsPath + id
    ensures var base := u[..|u| - |PluginsPath + id|];
      var url := if siteUrl.Some? then siteUrl.value else "/";
      if url[|url| - 1] == '/' then base + "/" == url else base == url
  {
    var url := if siteUrl.Some? then siteUrl.value else "/";
    var trimmed := if url[|url| - 1] == '/' then url[..|url| - 1] else url;
    assert (trimmed + PluginsPath + id)[..|trimmed|] == trimmed;
    assert (trimmed + PluginsPath + id)[|trimmed|..] == PluginsPath + id;
    trimmed + PluginsPath + id
  }

  /** With no site URL the plugin is served from the root. */
  lemma PluginUrlWithoutSite(id: string)
    ensures PluginUrl(None, id) == "/plugins/" + id
  {
    var u := PluginUrl(None, id);
    var n := |PluginsPath + id|;
    assert u[..|u| - n] == [];
    assert u == u[..|u| - n] + u[|u| - n..];
  }

  /** One trailing slash makes no difference. */
  lemma PluginUrlTrailingSlash(site: string, id: string)
    requires |site| > 0 && site[|site| - 1] != '/'
    ensures PluginUrl(Some(site + "/"), id) == PluginUrl(Some(site), id)
  {
    var a := PluginUrl(Some(site + "/"), id);
    var b := PluginUrl(Some(site), id);
    var n := |PluginsPath + id|;
    assert (site + "/")[|site + "/"| - 1] == '/';
    assert a[..|a| - n] + "/" == site + "/";
    assert a[..|a| - n] == site;
    assert a == a[..|a| - n] + a[|a| - n..];
    assert b == b[..|b| - n] + b[|b| - n..];
  }

  /** Only one slash is dropped: a site URL ending in two slashes keeps one of them. */
  lemma PluginUrlDoubleSlash(site: string, id: string)
    ensures PluginUrl(Some(site + "//"), id) == site + "/" + "/plugins/" + id
  {
    var u := PluginUrl(Some(site + "//"), id);
    var n := |PluginsPath + id|;
    assert (site + "//")[|site + "//"| - 1] == '/';
    assert u[..|u| - n] + "/" == site + "//";
    assert u[..|u| - n] == site + "/";
    assert u == u[..|u| - n] + u[|u| - n..];
  }
}

=== FILE: boards.dfy ===
/** The Connect-Four board of server/connect4/board.go: gravity moves, the four-in-a-row
    scan and the draw test. */
module Boards {
  import opened Results
  import opened Constants

  /** A board is indexed `b[column][row]`; row 0 is the top row and `Empty` marks a free cell. */
  type Board = seq<seq<int>>

  /** The 7 x 6 shape. The Go type does not enforce it: `NewBoard` establishes it and
      `Move` keeps it, since a move only overwrites one cell. */
  predicate WellFormed(b: Board) {
    |b| == Columns && forall i | 0 <= i < |b| :: |b[i]| == Rows
  }

  predicate InBounds(x: int, y: int) {
    0 <= x < Columns && 0 <= y < Rows
  }

  /** Gravity: every cell below an occupied cell of the same column is occupied. */
  ghost predicate Settled(b: Board)
    requires WellFormed(b)
  {
    forall i, j, k | 0 <= i < Columns && 0 <= j < k < Rows :: b[i][j] != Empty ==> b[i][k] != Empty
  }

  /** Every cell holds `Empty` or a player marker. */
  ghost predicate MarkersOnly(b: Board)
    requires WellFormed(b)
  {
    forall i, j | InBounds(i, j) :: b[i][j] == Empty || IsMarker(b[i][j])
  }

  /** No cell is free. */
  ghost predicate Full(b: Board)
    requires WellFormed(b)
  {
    forall i, j | InBounds(i, j) :: b[i][j] != Empty
  }

  function NewBoard(): (b: Board)
    ensures WellFormed(b) && Settled(b)
    ensures forall i, j | InBounds(i, j) :: b[i][j] == Empty
  {
    seq(Columns, _ => seq(Rows, _ => Empty))
  }

  // ---------------------------------------------------------------------------
  // Moves

  /** `IndexOutOfRange` is the Go runtime panic on `b[columnIndex]`, which only the
      as-written guard lets through. */
  datatype MoveError = NotSuchColumn | ColumnFull | IndexOutOfRange

  /** The scan of `Move`: the first occupied row at or below `from`, or `|col|` if none. */
  function FirstOccupied(col: seq<int>, from: nat): (k: nat)
    requires from <= |col|
    ensures from <= k <= |col|
    ensures forall r | from <= r < k :: col[r] == Empty
    ensures k < |col| ==> col[k] != Empty
    decreases |col| - from
  {
    if from == |col| then |col|
    else if col[from] != Empty then from
    else FirstOccupied(col, from + 1)
  }

  /** The row a piece dropped into a column with a free top cell lands on: the row just
      above the topmost piece, or the bottom row of an empty column. */
  function LandingRow(col: seq<int>): (row: nat)
    requires 0 < |col| && col[0] == Empty
    ensures row < |col| && col[row] == Empty
    ensures forall r | 0 <= r < row :: col[r] == Empty
    ensures row + 1 == |col| || col[row + 1] != Empty
  {
    var k := FirstOccupied(col, 0);
    if k < |col| then k - 1 else |col| - 1
  }

  function Place(b: Board, c: nat, row: nat, player: int): Board
    requires c < |b| && row < |b[c]|
  {
    b[c := b[c][row := player]]
  }

  /** `b'` is `b` with `player` written into cell `(c, row)` and no other cell changed. */
  ghost predicate PlacedOnly(b: Board, b': Board, c: int, row: int, player: int)
    requires WellFormed(b)
  {
    && WellFormed(b')
    && InBounds(c, row)
    && b'[c][row] == player
    && forall i, j | InBounds(i, j) && (i != c || j != row) :: b'[i][j] == b[i][j]
  }

  /** The move exactly as board.go:68-87 writes it: the range guard compares with `> columns`,
      so column 8 passes it and indexes past the last column. */
  function MoveAsWritten(b: Board, column: int, player: int): (r: Result<Board, MoveError>)
    requires WellFormed(b)
    ensures r.Ok? ==> 1 <= column <= Columns && b[column - 1][0] == Empty
    ensures r.Ok? ==> PlacedOnly(b, r.value, column - 1, LandingRow(b[column - 1]), player)
  {
    var columnIndex := column - 1;
    if columnIndex > Columns || columnIndex < 0 then Err(NotSuchColumn)
    else if columnIndex >= |b| then Err(IndexOutOfRange)
    else if b[columnIndex][0] != Empty then Err(ColumnFull)
    else Ok(Place(b, columnIndex, LandingRow(b[columnIndex]), player))
  }

  /** The move with the range guard the code evidently intends (`>= columns`); the rest of
      the model uses this one. */
  function Move(b: Board, column: int, player: int): (r: Result<Board, MoveError>)
    requires WellFormed(b)
    ensures r == Err(NotSuchColumn) <==> !(1 <= column <= Columns)
    ensures r == Err(ColumnFull) <==> 1 <= column <= Columns && b[column - 1][0] != Empty
    ensures r != Err(IndexOutOfRange)
    ensures r.Ok? ==> 1 <= column <= Columns && b[column - 1][0] == Empty
    ensures r.Ok? ==> PlacedOnly(b, r.value, column - 1, LandingRow(b[column - 1]), player)
  {
    var columnIndex := column - 1;
    if columnIndex >= Columns || columnIndex < 0 then Err(NotSuchColumn)
    else if b[columnIndex][0] != Empty then Err(ColumnFull)
    else Ok(Place(b, columnIndex, LandingRow(b[columnIndex]), player))
  }

  /** The guard hole: on every well-formed board, column 8 reaches the out-of-range index
      instead of being rejected as "Not such column". */
  lemma ColumnEightPassesGuard(b: Board, player: int)
    requires WellFormed(b)
    ensures MoveAsWritten(b, Columns + 1, player) == Err(IndexOutOfRange)
    ensures Move(b, Columns + 1, player) == Err(NotSuchColumn)
  {
  }

  /** Column 8 is the only input on which the written guard and the corrected one differ. */
  lemma MoveAsWrittenAgreesElsewhere(b: Board, column: int, player: int)
    requires WellFormed(b)
    ensures MoveAsWritten(b, column, player) == Move(b, column, player) <==> column != Columns + 1
  {
  }

  /** Under gravity the landing row is the lowest free cell of the column, a move keeps the
      board settled, and a non-empty marker adds exactly one piece. */
  lemma MoveKeepsGravity(b: Board, column: int, player: int)
    requires WellFormed(b) && Settled(b) && player != Empty
    requires Move(b, column, player).Ok?
    ensures var col := b[column - 1]; forall r | LandingRow(col) < r < Rows :: col[r] != Empty
    ensures Settled(Move(b, column, player).value)
    ensures Pieces(Move(b, column, player).value) == Pieces(b) + 1
  {
    var c := column - 1;
    var row := LandingRow(b[c]);
    var b' := Move(b, column, player).value;
    assert b' == Place(b, c, row, player);
    forall r | row < r < Rows
      ensures b[c][r] != Empty
    {
      assert b[c][row + 1] != Empty;
    }
    ColumnPiecesUpdate(b[c], row, player);
    PiecesUpdate(b, c, b[c][row := player]);
  }

  /** A move keeps every cell a marker when the moving player is a marker. */
  lemma MoveKeepsMarkers(b: Board, column: int, player: int)
    requires WellFormed(b) && MarkersOnly(b) && IsMarker(player)
    requires Move(b, column, player).Ok?
    ensures MarkersOnly(Move(b, column, player).value)
  {
  }

  // ---------------------------------------------------------------------------
  // Piece count

  function ColumnPieces(col: seq<int>): nat {
    if |col| == 0 then 0 else (if col[0] != Empty then 1 else 0) + ColumnPieces(col[1..])
  }

  /** The number of occupied cells. */
  function Pieces(b: Board): nat {
    if |b| == 0 then 0 else ColumnPieces(b[0]) + Pieces(b[1..])
  }

  lemma {:induction false} ColumnPiecesUpdate(col: seq<int>, k: nat, v: int)
    requires k < |col|
    ensures ColumnPieces(col[k := v])
         == ColumnPieces(col) - (if col[k] != Empty then 1 else 0) + (if v != Empty then 1 else 0)
    decreases k
  {
    if k == 0 {
      assert col[k := v][1..] == col[1..];
    } else {
      assert col[k := v][1..] == col[1..][k - 1 := v];
      ColumnPiecesUpdate(col[1..], k - 1, v);
    }
  }

  lemma {:induction false} PiecesUpdate(b: Board, c: nat, col: seq<int>)
    requires c < |b|
    ensures Pieces(b[c := col]) == Pieces(b) - ColumnPieces(b[c]) + ColumnPieces(col)
    decreases c
  {
    if c == 0 {
      assert b[c := col][1..] == b[1..];
    } else {
      assert b[c := col][1..] == b[1..][c - 1 := col];
      PiecesUpdate(b[1..], c - 1, col);
    }
  }

  // ---------------------------------------------------------------------------
  // Four in a row

  /** Cell `(x, y)` is on the board and holds `p`. */
  ghost predicate Owns(b: Board, x: int, y: int, p: int)
    requires WellFormed(b)
  {
    InBounds(x, y) && b[x][y] == p
  }

  predicate IsDirection(dx: int, dy: int) {
    -1 <= dx <= 1 && -1 <= dy <= 1 && (dx != 0 || dy != 0)
  }

  /** The three cells at distance 1, 2 and 3 from `(i, j)` along `(dx, dy)` all hold `p`. */
  ghost predicate Line(b: Board, i: int, j: int, p: int, dx: int, dy: int)
    requires WellFormed(b)
  {
    Owns(b, i + dx, j + dy, p) && Owns(b, i + 2 * dx, j + 2 * dy, p) && Owns(b, i + 3 * dx, j + 3 * dy, p)
  }

  /** Reference meaning of `checkWin`: some of the eight directions carries a line of `p`. */
  ghost predicate WinAt(b: Board, i: int, j: int, p: int)
    requires WellFormed(b)
  {
    exists dx, dy | IsDirection(dx, dy) :: Line(b, i, j, p, dx, dy)
  }

  /** The innermost loop of `checkWin`, from distance `d` on. The `dx == 0 && dy == 0`
      test only leaves this loop, so the two outer loops go on with the next pair. */
  function RunFrom(b: Board, i: int, j: int, p: int, dx: int, dy: int, d: int): bool
    requires WellFormed(b) && 1 <= d <= 3
    decreases 3 - d
  {
    if dx == 0 && dy == 0 then false
    else
      var x := i + dx * d;
      var y := j + dy * d;
      if x < 0 || x >= Columns || y < 0 || y >= Rows then false
      else if b[x][y] != p then false
      else if d == 3 then true
      else RunFrom(b, i, j, p, dx, dy, d + 1)
  }

  /** The two outer loops of `checkWin`, resumed at the pair `(dx, dy)`: `dx` and `dy` each
      run from -1 to 1, `dy` innermost. */
  function Directions(b: Board, i: int, j: int, p: int, dx: int, dy: int): bool
    requires WellFormed(b) && -1 <= dx <= 2 && -1 <= dy <= 2
    decreases 2 - dx, 2 - dy
  {
    if dx == 2 then false
    else if dy == 2 then Directions(b, i, j, p, dx + 1, -1)
    else RunFrom(b, i, j, p, dx, dy, 1) || Directions(b, i, j, p, dx, dy + 1)
  }

  lemma RunFromSpec(b: Board, i: int, j: int, p: int, dx: int, dy: int)
    requires WellFormed(b)
    ensures RunFrom(b, i, j, p, dx, dy, 1) <==> (dx != 0 || dy != 0) && Line(b, i, j, p, dx, dy)
  {
    assert RunFrom(b, i, j, p, dx, dy, 2) == (if dx == 0 && dy == 0 then false
      else if !InBounds(i + dx * 2, j + dy * 2) then false
      else if b[i + dx * 2][j + dy * 2] != p then false
      else RunFrom(b, i, j, p, dx, dy, 3));
  }

  /** The remaining pairs, from `(dx, dy)` on in loop order, hold a line exactly when some
      direction not before `(dx, dy)` does. */
  lemma {:induction false} DirectionsSpec(b: Board, i: int, j: int, p: int, dx: int, dy: int)
    requires WellFormed(b) && -1 <= dx <= 2 && -1 <= dy <= 2
    ensures Directions(b, i, j, p, dx, dy)
        <==> exists dx', dy' | IsDirection(dx', dy') && !Before(dx', dy', dx, dy) :: Line(b, i, j, p, dx', dy')
    decreases 2 - dx, 2 - dy
  {
    if dx == 2 {
    } else if dy == 2 {
      DirectionsSpec(b, i, j, p, dx + 1, -1);
      if Directions(b, i, j, p, dx, dy) {
        var dx', dy' :| IsDirection(dx', dy') && !Before(dx', dy', dx + 1, -1) && Line(b, i, j, p, dx', dy');
        assert !Before(dx', dy', dx, dy);
      } else {
        forall dx', dy' | IsDirection(dx', dy') && !Before(dx', dy', dx, dy)
          ensures !Line(b, i, j, p, dx', dy')
        {
          assert !Before(dx', dy', dx + 1, -1);
        }
      }
    } else {
      RunFromSpec(b, i, j, p, dx, dy);
      DirectionsSpec(b, i, j, p, dx, dy + 1);
      if Directions(b, i, j, p, dx, dy) {
        if RunFrom(b, i, j, p, dx, dy, 1) {
          assert IsDirection(dx, dy) && !Before(dx, dy, dx, dy) && Line(b, i, j, p, dx, dy);
        } else {
          var dx', dy' :| IsDirection(dx', dy') && !Before(dx', dy', dx, dy + 1) && Line(b, i, j, p, dx', dy');
          assert !Before(dx', dy', dx, dy);
        }
      } else {
        forall dx', dy' | IsDirection(dx', dy') && !Before(dx', dy', dx, dy)
          ensures !Line(b, i, j, p, dx', dy')
        {
          if dx' != dx || dy' != dy {
            assert !Before(dx', dy', dx, dy + 1);
          }
        }
      }
    }
  }

  /** `checkWin(i, j, p)` of board.go:35-57. */
  function CheckWin(b: Board, i: int, j: int, p: int): (won: bool)
    requires WellFormed(b)
    ensures won <==> WinAt(b, i, j, p)
  {
    DirectionsSpec(b, i, j, p, -1, -1);
    Directions(b, i, j, p, -1, -1)
  }

  /** Cell `(i, j)` holds a piece that starts a four-in-a-row of its owner. */
  ghost predicate WinStart(b: Board, i: int, j: int)
    requires WellFormed(b)
  {
    InBounds(i, j) && b[i][j] != Empty && WinAt(b, i, j, b[i][j])
  }

  ghost predicate FourInARow(b: Board)
    requires WellFormed(b)
  {
    exists i, j :: WinStart(b, i, j)
  }

  /** Lexicographic order on pairs: the visiting order of two nested ascending loops, so
      cell `(i', j')` is scanned before `(i, j)` column-major, top-down. */
  predicate Before(i': int, j': int, i: int, j: int) {
    i' < i || (i' == i && j' < j)
  }

  ghost predicate NoWinBefore(b: Board, i: int, j: int)
    requires WellFormed(b)
  {
    forall i', j' | Before(i', j', i, j) :: !WinStart(b, i', j')
  }

  /** The first winning start in scan order. */
  ghost predicate FirstWinStart(b: Board, i: int, j: int)
    requires WellFormed(b)
  {
    WinStart(b, i, j) && NoWinBefore(b, i, j)
  }

  /** The two loops of `HasWon`, resumed at cell `(i, j)`. */
  function ScanFrom(b: Board, i: int, j: int): int
    requires WellFormed(b) && 0 <= i <= Columns && 0 <= j <= Rows
    decreases Columns - i, Rows - j
  {
    if i == Columns then 0
    else if j == Rows then ScanFrom(b, i + 1, 0)
    else if b[i][j] != Empty && CheckWin(b, i, j, b[i][j]) then b[i][j]
    else ScanFrom(b, i, j + 1)
  }

  lemma {:induction false} ScanFromSpec(b: Board, i: int, j: int)
    requires WellFormed(b) && 0 <= i <= Columns && 0 <= j <= Rows
    requires NoWinBefore(b, i, j)
    ensures ScanFrom(b, i, j) == 0 <==> !FourInARow(b)
    ensures ScanFrom(b, i, j) != 0 ==> exists i', j' :: FirstWinStart(b, i', j') && ScanFrom(b, i, j) == b[i'][j']
    decreases Columns - i, Rows - j
  {
    if i == Columns {
      forall i', j' ensures !WinStart(b, i', j') {
        if InBounds(i', j') {
          assert Before(i', j', i, j);
        }
      }
    } else if j == Rows {
      forall i', j' | Before(i', j', i + 1, 0) ensures !WinStart(b, i', j') {
        if InBounds(i', j') {
          assert Before(i', j', i, j);
        }
      }
      ScanFromSpec(b, i + 1, 0);
    } else if b[i][j] != Empty && CheckWin(b, i, j, b[i][j]) {
      assert FirstWinStart(b, i, j);
    } else {
      assert !WinStart(b, i, j);
      forall i', j' | Before(i', j', i, j + 1) ensures !WinStart(b, i', j') {
        if i' != i || j' != j {
          assert Before(i', j', i, j);
        }
      }
      ScanFromSpec(b, i, j + 1);
    }
  }

  /** `HasWon` of board.go:21-33: zero exactly when no four-in-a-row of equal non-empty
      cells exists, and otherwise the owner of the first winning start in scan order. */
  function HasWon(b: Board): (w: int)
    requires WellFormed(b)
    ensures w == Empty <==> !FourInARow(b)
    ensures w != Empty ==> exists i, j :: FirstWinStart(b, i, j) && w == b[i][j]
  {
    ScanFromSpec(b, 0, 0);
    ScanFrom(b, 0, 0)
  }

  /** On a board of markers the winner found is a marker. */
  lemma HasWonIsMarker(b: Board)
    requires WellFormed(b) && MarkersOnly(b)
    ensures HasWon(b) == Empty || IsMarker(HasWon(b))
  {
  }

  // ---------------------------------------------------------------------------
  // Draw and end of game

  /** The loop of `checkDraw` from column `k` on. */
  function DrawFrom(b: Board, k: nat): (r: bool)
    requires WellFormed(b) && k <= Columns
    ensures r <==> forall i | k <= i < Columns :: b[i][0] != Empty
    decreases Columns - k
  {
    if k == Columns then true
    else if b[k][0] == Empty then false
    else DrawFrom(b, k + 1)
  }

  /** `checkDraw` of board.go:59-66: every column's top cell is occupied. On a settled
      board that is a full board; it says nothing about a win. */
  function CheckDraw(b: Board): (r: bool)
    requires WellFormed(b)
    ensures r <==> forall i | 0 <= i < Columns :: b[i][0] != Empty
    ensures Settled(b) ==> (r <==> Full(b))
  {
    DrawFrom(b, 0)
  }

  /** `HasFinished` of board.go:17-19. */
  function HasFinished(b: Board): (r: bool)
    requires WellFormed(b)
    ensures r <==> (forall i | 0 <= i < Columns :: b[i][0] != Empty) || FourInARow(b)
  {
    CheckDraw(b) || HasWon(b) != Empty
  }

  /** The empty board has no winner, is not drawn and holds no piece. */
  lemma NewBoardUndecided()
    ensures HasWon(NewBoard()) == Empty
    ensures !CheckDraw(NewBoard()) && !HasFinished(NewBoard())
    ensures Pieces(NewBoard()) == 0
  {
    var b := NewBoard();
    forall i, j ensures !WinStart(b, i, j) {
    }
    assert !CheckDraw(b) by {
      assert b[0][0] == Empty;
    }
    assert forall k | 0 <= k <= Columns :: Pieces(b[k..]) == 0 by {
      forall k | 0 <= k <= Columns ensures Pieces(b[k..]) == 0 {
        EmptyColumnsHoldNoPieces(b, k);
      }
    }
    assert b[0..] == b;
  }

  lemma {:induction false} EmptyColumnsHoldNoPieces(b: Board, k: nat)
    requires WellFormed(b) && k <= Columns
    requires forall i, j | InBounds(i, j) :: b[i][j] == Empty
    ensures Pieces(b[k..]) == 0
    decreases Columns - k
  {
    if k < Columns {
      assert b[k..][1..] == b[k + 1..];
      EmptyColumnHoldsNoPieces(b[k], 0);
      assert b[k][0..] == b[k];
      EmptyColumnsHoldNoPieces(b, k + 1);
    }
  }

  lemma {:induction false} EmptyColumnHoldsNoPieces(col: seq<int>, k: nat)
    requires k <= |col|
    requires forall r | 0 <= r < |col| :: col[r] == Empty
    ensures ColumnPieces(col[k..]) == 0
    decreases |col| - k
  {
    if k < |col| {
      assert col[k..][1..] == col[k + 1..];
      EmptyColumnHoldsNoPieces(col, k + 1);
    }
  }

  /** Column 1 holding Player1 in its bottom four rows is a win for Player1. */
  lemma BottomFourOfColumnOneWins()
    ensures var b := NewBoard()[0 := [Empty, Empty, Player1, Player1, Player1, Player1]];
      WellFormed(b) && HasWon(b) == Player1
  {
    var b := NewBoard()[0 := [Empty, Empty, Player1, Player1, Player1, Player1]];
    assert Line(b, 0, 2, Player1, 0, 1);
    assert WinStart(b, 0, 2);
    forall i', j' | Before(i', j', 0, 2) ensures !WinStart(b, i', j') {
    }
  }
}

=== FILE: constants.dfy ===
/** The integer codes of server/connect4/constants.go and the board size of server/connect4/image.go. */
module Constants {

  const OutcomeNoOutcome := 0
  const OutcomePlayer1Win := 1
  const OutcomePlayer2Win := 2
  const OutcomePlayer1Resign := -1
  const OutcomePlayer2Resign := -2
  const OutcomeDraw := 3

  /** Player markers; a board cell holding 0 is empty. */
  const Player1 := 1
  const Player2 := 2
  const Empty := 0

  const Rows := 6
  const Columns := 7

  predicate IsMarker(p: int) {
    p == Player1 || p == Player2
  }

  /** The six outcome codes a game result can take. */
  predicate IsOutcome(code: int) {
    code in {OutcomeNoOutcome, OutcomePlayer1Win, OutcomePlayer2Win,
             OutcomePlayer1Resign, OutcomePlayer2Resign, OutcomeDraw}
  }

  /** The outcome codes are pairwise distinct, and the draw code is not a player marker. */
  lemma OutcomeCodesDistinct()
    ensures |{OutcomeNoOutcome, OutcomePlayer1Win, OutcomePlayer2Win,
              OutcomePlayer1Resign, OutcomePlayer2Resign, OutcomeDraw}| == 6
    ensures !IsMarker(OutcomeDraw) && !IsMarker(OutcomeNoOutcome)
  {
  }

  /** A win code is the winner's marker and a resign code is the resigner's negated marker:
      the game stores the owner of a winning line directly as its result. */
  lemma OutcomeCodesMatchMarkers()
    ensures OutcomePlayer1Win == Player1 && OutcomePlayer2Win == Player2
    ensures OutcomePlayer1Resign == -Player1 && OutcomePlayer2Resign == -Player2
    ensures forall p | IsMarker(p) :: IsOutcome(p) && IsOutcome(-p)
  {
  }
}

=== FILE: decimal.dfy ===
/** The decimal rendering `strconv.Itoa` used for the column labels and the font size. */
module Decimal {

  predicate IsDigit(c: char) {
    '0' as int <= c as int <= '9' as int
  }

  function DigitChar(d: nat): (c: char)
    requires d < 10
    ensures IsDigit(c) && DigitValue(c) == d
  {
    ('0' as int + d) as char
  }

  function DigitValue(c: char): (d: nat)
    requires IsDigit(c)
    ensures d < 10
  {
    (c as int) - ('0' as int)
  }

  /** The number a string of decimal digits denotes, most significant digit first. */
  function DigitsValue(s: string): nat
    requires forall k | 0 <= k < |s| :: IsDigit(s[k])
  {
    if |s| == 0 then 0 else 10 * DigitsValue(s[..|s| - 1]) + DigitValue(s[|s| - 1])
  }

  /** `strconv.Itoa` on a natural number: digits only, no leading zero, denoting `n`. */
  function Itoa(n: nat): (s: string)
    ensures 0 < |s| && forall k | 0 <= k < |s| :: IsDigit(s[k])
    ensures s[0] == '0' ==> n == 0 && |s| == 1
    ensures DigitsValue(s) == n
    decreases n
  {
    if n < 10 then [DigitChar(n)]
    else
      var prefix := Itoa(n / 10);
      var s := prefix + [DigitChar(n % 10)];
      assert s[..|s| - 1] == prefix;
      s
  }
}

=== FILE: game_manager.dfy ===
/** The decision logic of the plugin's game manager (server/game_manager.go) over an abstract
    store: the key-value store becomes a map from key to the game stored there (a missing key
    and an undecodable value both read as no game), and the user lookup becomes a map from
    user id to username. The channel lookup, the post creation and the random first turn are
    passed in as their results. */
module GameManager {
  import opened Results
  import opened Constants
  import opened Boards
  import ValidMoves
  import Games

  datatype Store = Store(games: map<string, Games.Game>, usernames: map<string, string>)

  datatype ManagerError =
    | ChannelUnavailable    // the direct channel could not be opened
    | StillActiveGame       // "still an active game"
    | PostNotCreated        // the post could not be created
    | NoGameStarted         // "no game started"
    | NotYourTurn           // "it is not your turn"
    | BoardRejected(e: MoveError)
    | NotPlaying            // "you are not playing"
    | UserMissing           // a player's user record is missing: Go dereferences a nil user

  /** The two buttons of a running game; each posts to its action path followed by the channel. */
  datatype ActionKind = MoveAction | ResignAction
  datatype Action = Action(name: string, kind: ActionKind, channelId: string)

  /** The post of a game and the attachment it carries. */
  datatype Post = Post(
    id: string,
    channelId: string,
    userId: string,
    player1Name: string,
    player2Name: string,
    turnName: string,
    actions: seq<Action>,
    footer: string)

  /** What `gameToPost` produces: the post and the user, if any, granted the winner achievement. */
  datatype Rendered = Rendered(post: Post, achievement: Option<string>)

  datatype Created = Created(store: Store, post: Post)

  /** Every stored game has a 7 x 6 board, which the game operations index without checks. */
  ghost predicate Shaped(s: Store) {
    forall id | id in s.games :: WellFormed(s.games[id].board)
  }

  /** The game stored under `id`, if any, has a 7 x 6 board. */
  predicate ShapedAt(s: Store, id: string) {
    id in s.games ==> WellFormed(s.games[id].board)
  }

  /** Every stored game sits under its own channel id. */
  ghost predicate Keyed(s: Store) {
    forall id | id in s.games :: s.games[id].channelId == id
  }

  /** `getGameMetadata` finds both players' user records. */
  predicate Resolves(s: Store, g: Games.Game) {
    g.player1 in s.usernames && g.player2 in s.usernames
  }

  /** `saveGame` writes under the channel id from the metadata, which is "" when a player's
      user record is missing. */
  function SaveGame(s: Store, g: Games.Game): (s': Store)
    ensures s'.usernames == s.usernames
    ensures Resolves(s, g) ==> s'.games == s.games[g.channelId := g]
    ensures !Resolves(s, g) ==> s'.games == s.games["" := g]
  {
    var key := if Resolves(s, g) then g.channelId else "";
    s.(games := s.games[key := g])
  }

  /** The footer for each outcome; an unknown code has none. */
  function Footer(result: int): (f: string)
    ensures f != "" <==> IsOutcome(result) && result != OutcomeNoOutcome
    ensures WinningSeat(result) == Player1 ==> |f| >= 7 && f[..7] == "Player1"
    ensures WinningSeat(result) == Player2 ==> |f| >= 7 && f[..7] == "Player2"
    ensures result == OutcomeDraw ==> f == "Draw!"
  {
    if result == OutcomePlayer1Win then "Player1 won!"
    else if result == OutcomePlayer2Win then "Player2 won!"
    else if result == OutcomePlayer1Resign then "Player2" + " won because player 1 resigned!"
    else if result == OutcomePlayer2Resign then "Player1" + " won because Player2 resigned!"
    else if result == OutcomeDraw then "Draw!"
    else ""
  }

  /** The seat that won the game, 0 for none: the winner of a four-in-a-row, or the opponent
      of the seat that resigned. */
  function WinningSeat(result: int): (seat: int)
    ensures seat == Empty || IsMarker(seat)
    ensures seat == Player1 <==> result in {OutcomePlayer1Win, OutcomePlayer2Resign}
    ensures seat == Player2 <==> result in {OutcomePlayer2Win, OutcomePlayer1Resign}
  {
    if IsMarker(result) then result
    else if IsMarker(-result) then 3 - (-result)
    else Empty
  }

  /** `gameToPost`: the post shows both usernames and the username of the seat to move;
      buttons iff the game is running; otherwise a footer per outcome and the winner
      achievement for the player who won. */
  function GameToPost(s: Store, g: Games.Game, botId: string): (r: Result<Rendered, ManagerError>)
    ensures r.Err? <==> !Resolves(s, g)
    ensures r.Ok? ==>
      var p := r.value.post;
      && p.id == g.postId && p.channelId == g.channelId && p.userId == botId
      && p.player1Name == s.usernames[g.player1] && p.player2Name == s.usernames[g.player2]
      && p.turnName == s.usernames[Games.GetTurnPlayer(g)]
      && p.actions == (if g.result == OutcomeNoOutcome
                       then [Action("Move", MoveAction, g.channelId), Action("Resign", ResignAction, g.channelId)]
                       else [])
      && p.footer == Footer(g.result)
    ensures r.Ok? && WinningSeat(g.result) == Player1 ==> r.value.achievement == Some(g.player1)
    ensures r.Ok? && WinningSeat(g.result) == Player2 ==> r.value.achievement == Some(g.player2)
    ensures r.Ok? && WinningSeat(g.result) == Empty ==> r.value.achievement == None
  {
    if !Resolves(s, g) then Err(UserMissing)
    else
      var name1 := s.usernames[g.player1];
      var name2 := s.usernames[g.player2];
      var turnId := Games.GetTurnPlayer(g);
      var turn := if turnId == g.player1 then name1 else if turnId == g.player2 then name2 else "";
      var outcome := Games.Outcome(g);
      var actions :=
        if outcome == OutcomeNoOutcome
        then [Action("Move", MoveAction, g.channelId), Action("Resign", ResignAction, g.channelId)]
        else [];
      var achievement :=
        if outcome == OutcomePlayer1Win || outcome == OutcomePlayer2Resign then Some(g.player1)
        else if outcome == OutcomePlayer2Win || outcome == OutcomePlayer1Resign then Some(g.player2)
        else None;
      Ok(Rendered(Post(g.postId, g.channelId, botId, name1, name2, turn, actions, Footer(outcome)), achievement))
  }

  /** `CreateGame` between `playerA` and `playerB`. `channel` is the direct channel the plugin
      API opens (None when it fails), `coin` the random draw deciding the first turn, and
      `postId` the id of the created post (None when creating it fails). */
  function CreateGame(s: Store, playerA: string, playerB: string, botId: string,
                      channel: Option<string>, coin: int, postId: Option<string>): (r: Result<Created, ManagerError>)
    requires 0 <= coin < 2
    ensures channel.None? ==> r == Err(ChannelUnavailable)
    ensures channel.Some? && channel.value in s.games && s.games[channel.value].result == OutcomeNoOutcome
            ==> r == Err(StillActiveGame)
    ensures r.Ok? <==> channel.Some? && postId.Some?
                       && !(channel.value in s.games && s.games[channel.value].result == OutcomeNoOutcome)
                       && Resolves(s, Games.NewGame(playerA, playerB, channel.value, coin))
    ensures (&& channel.Some?
             && !(channel.value in s.games && s.games[channel.value].result == OutcomeNoOutcome)
             && !Resolves(s, Games.NewGame(playerA, playerB, channel.value, coin)))
            ==> r == Err(UserMissing)
    ensures (&& channel.Some?
             && !(channel.value in s.games && s.games[channel.value].result == OutcomeNoOutcome)
             && Resolves(s, Games.NewGame(playerA, playerB, channel.value, coin))
             && postId.None?)
            ==> r == Err(PostNotCreated)
    ensures r.Ok? ==> var g := Games.NewGame(playerA, playerB, channel.value, coin).(postId := postId.value);
      r.value.store == SaveGame(s, g) && r.value.post.id == "" && r.value.post.actions != []
    ensures r.Ok? ==>
      var rendered := GameToPost(s, Games.NewGame(playerA, playerB, channel.value, coin), botId);
      rendered.Ok? && r.value.post == rendered.value.post
  {
    if channel.None? then Err(ChannelUnavailable)
    else
      var c := channel.value;
      if c in s.games && Games.Outcome(s.games[c]) == OutcomeNoOutcome then Err(StillActiveGame)
      else
        var game := Games.NewGame(playerA, playerB, c, coin);
        match GameToPost(s, game, botId)
        case Err(e) => Err(e)
        case Ok(rendered) =>
          if postId.None? then Err(PostNotCreated)
          else
            var saved := Games.SetPostId(game, postId.value);
            Ok(Created(SaveGame(s, saved), rendered.post))
  }

  /** `Move` on the game stored under `id` by the user `player`. */
  function Move(s: Store, id: string, player: string, movement: int): (r: Result<Store, ManagerError>)
    requires ShapedAt(s, id)
    ensures id !in s.games ==> r == Err(NoGameStarted)
    ensures id in s.games && Games.GetTurnPlayer(s.games[id]) != player ==> r == Err(NotYourTurn)
    ensures r.Ok? <==> id in s.games && Games.GetTurnPlayer(s.games[id]) == player
                       && Games.Move(s.games[id], movement).Ok?
    ensures r.Ok? ==> r.value == SaveGame(s, Games.Move(s.games[id], movement).value)
    ensures r.Err? && id in s.games && Games.GetTurnPlayer(s.games[id]) == player ==>
      r.error == BoardRejected(Games.Move(s.games[id], movement).error)
  {
    if id !in s.games then Err(NoGameStarted)
    else
      var game := s.games[id];
      if player != Games.GetTurnPlayer(game) then Err(NotYourTurn)
      else
        match Games.Move(game, movement)
        case Err(e) => Err(BoardRejected(e))
        case Ok(moved) => Ok(SaveGame(s, moved))
  }

  /** `Resign` on the game stored under `id` by the user `player`: the first seat is checked
      first, so a user holding both seats resigns as Player1. */
  function Resign(s: Store, id: string, player: string): (r: Result<Store, ManagerError>)
    ensures id !in s.games ==> r == Err(NoGameStarted)
    ensures id in s.games && !Resolves(s, s.games[id]) ==> r == Err(UserMissing)
    ensures r.Ok? <==> id in s.games && Resolves(s, s.games[id])
                       && (player == s.games[id].player1 || player == s.games[id].player2)
    ensures (&& id in s.games && Resolves(s, s.games[id])
             && player != s.games[id].player1 && player != s.games[id].player2)
            ==> r == Err(NotPlaying)
    ensures r.Ok? ==> var g := s.games[id];
      r.value == SaveGame(s, g.(result := if player == g.player1 then OutcomePlayer1Resign
                                           else OutcomePlayer2Resign))
  {
    if id !in s.games then Err(NoGameStarted)
    else
      var game := s.games[id];
      if !Resolves(s, game) then Err(UserMissing)
      else if player == game.player1 then Ok(SaveGame(s, Games.Resign(game, Player1).value))
      else if player == game.player2 then Ok(SaveGame(s, Games.Resign(game, Player2).value))
      else Err(NotPlaying)
  }

  /** `CanMove`: whether the user is the one to move in the stored game. */
  function CanMove(s: Store, id: string, player: string): bool {
    id in s.games && Games.GetTurnPlayer(s.games[id]) == player
  }

  /** `IsPlayingGame`: whether the user holds a seat in the stored game. */
  function IsPlayingGame(s: Store, id: string, player: string): (r: Result<bool, ManagerError>)
    ensures id !in s.games ==> r == Ok(false)
    ensures r.Err? <==> id in s.games && !Resolves(s, s.games[id])
  {
    if id !in s.games then Ok(false)
    else
      var game := s.games[id];
      if !Resolves(s, game) then Err(UserMissing)
      else Ok(game.player1 == player || game.player2 == player)
  }

  /** `ValidMovements` of the stored game; None stands for Go's nil slice. */
  function ValidMovements(s: Store, id: string): (r: Option<seq<int>>)
    requires ShapedAt(s, id)
    ensures r.None? <==> id !in s.games
    ensures r.Some? ==> forall c :: c in r.value <==> ValidMoves.Open(s.games[id].board, c)
  {
    if id !in s.games then None else Some(Games.ValidMovements(s.games[id]))
  }

  // ---------------------------------------------------------------------------
  // How the operations relate

  /** `CanMove` is exactly the guard `Move` applies before it consults the board. */
  lemma CanMoveIsTurnGuard(s: Store, id: string, player: string, movement: int)
    requires ShapedAt(s, id)
    ensures CanMove(s, id, player) <==> Move(s, id, player, movement) !in {Err(NoGameStarted), Err(NotYourTurn)}
  {
  }

  /** A move is saved iff the user may move and the column is among the game's valid movements. */
  lemma MoveAcceptedIffValid(s: Store, id: string, player: string, movement: int)
    requires ShapedAt(s, id)
    ensures Move(s, id, player, movement).Ok? <==>
      CanMove(s, id, player) && movement in ValidMovements(s, id).value
  {
    if id in s.games {
      var g := s.games[id];
      ValidMoves.ValidMovementsAccepted(g.board, movement, g.turn);
    }
  }

  /** Where both players resolve, a user may resign exactly the games they play. */
  lemma ResignAcceptedIffPlaying(s: Store, id: string, player: string)
    requires id in s.games && Resolves(s, s.games[id])
    ensures Resign(s, id, player).Ok? <==> IsPlayingGame(s, id, player) == Ok(true)
  {
  }

  /** The achievement after a resignation goes to the other seat, and the buttons are gone. */
  lemma ResignGrantsOpponent(s: Store, id: string, player: string, botId: string)
    requires Keyed(s) && Resign(s, id, player).Ok?
    ensures var g := s.games[id];
      var s' := Resign(s, id, player).value;
      var other := if player == g.player1 then g.player2 else g.player1;
      && id in s'.games
      && GameToPost(s', s'.games[id], botId).Ok?
      && GameToPost(s', s'.games[id], botId).value.achievement == Some(other)
      && GameToPost(s', s'.games[id], botId).value.post.actions == []
  {
    var g := s.games[id];
    var s' := Resign(s, id, player).value;
    var g' := s'.games[id];
    assert g'.result == if player == g.player1 then OutcomePlayer1Resign else OutcomePlayer2Resign;
    assert WinningSeat(g'.result) == if player == g.player1 then Player2 else Player1;
  }

  /** A winning move ends the game for the post: the mover is granted the achievement on a
      valid game and the buttons disappear. */
  lemma WinningMoveGrantsMover(s: Store, id: string, player: string, movement: int, botId: string)
    requires Keyed(s) && id in s.games && Games.Valid(s.games[id])
    requires Resolves(s, s.games[id]) && Move(s, id, player, movement).Ok?
    requires !FourInARow(s.games[id].board) && FourInARow(Games.Move(s.games[id], movement).value.board)
    ensures var s' := Move(s, id, player, movement).value;
      && id in s'.games
      && GameToPost(s', s'.games[id], botId).Ok?
      && GameToPost(s', s'.games[id], botId).value.achievement == Some(player)
      && GameToPost(s', s'.games[id], botId).value.post.actions == []
  {
    var g := s.games[id];
    var g' := Games.Move(g, movement).value;
    Games.WinOverridesDraw(g, movement);
    Games.MoveOutcome(g, movement);
    var i, j :| FirstWinStart(g'.board, i, j) && g'.result == g'.board[i][j] != Empty;
    Games.WinnerIsMover(g, movement);
  }

  /** A running game for the channel blocks a second one; once the game is saved under its
      channel, creating another between the same players is refused. */
  lemma CreateTwiceRefused(s: Store, a: string, b: string, botId: string, c: string, coin: int, postId: string,
                           coin': int, postId': Option<string>)
    requires 0 <= coin < 2 && 0 <= coin' < 2
    requires CreateGame(s, a, b, botId, Some(c), coin, Some(postId)).Ok?
    requires Resolves(s, Games.NewGame(a, b, c, coin))
    ensures var s' := CreateGame(s, a, b, botId, Some(c), coin, Some(postId)).value.store;
      CreateGame(s', a, b, botId, Some(c), coin', postId') == Err(StillActiveGame)
  {
  }

  /** Saved games stay 7 x 6 and stay under their channel as long as the players resolve. */
  lemma MoveKeepsStoreShaped(s: Store, id: string, player: string, movement: int)
    requires Shaped(s) && Move(s, id, player, movement).Ok?
    ensures Shaped(Move(s, id, player, movement).value)
    ensures Keyed(s) && Resolves(s, s.games[id]) ==> Keyed(Move(s, id, player, movement).value)
  {
  }

  lemma ResignKeepsStoreShaped(s: Store, id: string, player: string)
    requires Shaped(s) && Resign(s, id, player).Ok?
    ensures Shaped(Resign(s, id, player).value)
    ensures Keyed(s) ==> Keyed(Resign(s, id, player).value)
  {
  }

  lemma CreateKeepsStoreShaped(s: Store, a: string, b: string, botId: string,
                               channel: Option<string>, coin: int, postId: Option<string>)
    requires 0 <= coin < 2 && Shaped(s) && CreateGame(s, a, b, botId, channel, coin, postId).Ok?
    ensures Shaped(CreateGame(s, a, b, botId, channel, coin, postId).value.store)
    ensures Keyed(s) ==> Keyed(CreateGame(s, a, b, botId, channel, coin, postId).value.store)
  {
  }
}

=== FILE: games.dfy ===
/** The game record of server/connect4/model.go and its operations in server/connect4/game.go:
    turns, the outcome after a move, resignation and the metadata accessors. */
module Games {
  import opened Results
  import opened Constants
  import opened Boards
  import ValidMoves

  datatype Game = Game(
    board: Board,
    player1: string,
    player2: string,
    lastMovement: int,
    turn: int,
    channelId: string,
    postId: string,
    result: int)

  /** What `GetMetadata` returns: channel id, post id and the two player ids. */
  datatype Metadata = Metadata(channelId: string, postId: string, player1: string, player2: string)

  datatype ResignError = PlayerNotPlaying

  /** A game as `NewGame` and the operations below keep it: a settled 7 x 6 board of markers,
      a marker's turn and one of the six outcome codes. A decoded game need not be valid:
      decoding checks neither the board nor the turn. */
  ghost predicate Valid(g: Game) {
    && WellFormed(g.board) && Settled(g.board) && MarkersOnly(g.board)
    && IsMarker(g.turn) && IsOutcome(g.result)
  }

  /** The fields neither `Move` nor `Resign` touch. */
  ghost predicate SameIdentity(g: Game, g': Game) {
    g'.player1 == g.player1 && g'.player2 == g.player2
    && g'.channelId == g.channelId && g'.postId == g.postId
  }

  /** `NewGame` with the random draw `rand.Intn(2)` passed in as `coin`. */
  function NewGame(p1: string, p2: string, channelId: string, coin: int): (g: Game)
    requires 0 <= coin < 2
    ensures Valid(g)
    ensures forall i, j | InBounds(i, j) :: g.board[i][j] == Empty
    ensures g.lastMovement == 0 && g.result == OutcomeNoOutcome && g.postId == ""
    ensures IsMarker(g.turn) && (coin == 0 <==> g.turn == Player1)
    ensures g.player1 == p1 && g.player2 == p2 && g.channelId == channelId
  {
    Game(NewBoard(), p1, p2, 0, coin + 1, channelId, "", OutcomeNoOutcome)
  }

  /** Go's `/` truncates toward zero, unlike Dafny's Euclidean `/`. */
  function GoQuo(a: int, m: int): int
    requires m > 0
  {
    if a >= 0 then a / m else -((-a) / m)
  }

  /** Go's `%`: the remainder that goes with the truncated quotient, so it takes the sign of
      the dividend. */
  function GoRem(a: int, m: int): (r: int)
    requires m > 0
    ensures a == m * GoQuo(a, m) + r
    ensures a >= 0 ==> 0 <= r < m
    ensures a < 0 ==> -m < r <= 0
  {
    if a >= 0 then a % m else -((-a) % m)
  }

  /** The turn after an accepted move, `(Turn % 2) + 1`: it swaps the two markers, but a
      negative odd turn, which only a decoded game can hold, yields 0. */
  function NextTurn(turn: int): (next: int)
    ensures next == Player1 <==> turn % 2 == 0
    ensures next == Player2 <==> turn > 0 && turn % 2 == 1
    ensures next == 0 <==> turn < 0 && turn % 2 == 1
    ensures IsMarker(turn) ==> IsMarker(next) && next != turn
  {
    GoRem(turn, 2) + 1
  }

  /** `GetTurnPlayer`: the id seated on the turn's marker; any turn other than Player1 selects
      the second seat. */
  function GetTurnPlayer(g: Game): (id: string)
    ensures id == g.player1 || id == g.player2
    ensures g.player1 != g.player2 ==> (id == g.player1 <==> g.turn == Player1)
  {
    if g.turn == Player1 then g.player1 else g.player2
  }

  function Outcome(g: Game): int {
    g.result
  }

  function GetMetadata(g: Game): Metadata {
    Metadata(g.channelId, g.postId, g.player1, g.player2)
  }

  /** `SetPostID` changes the post id and nothing else. */
  function SetPostId(g: Game, postId: string): (g': Game)
    ensures GetMetadata(g') == Metadata(g.channelId, postId, g.player1, g.player2)
    ensures g'.board == g.board && g'.turn == g.turn && g'.lastMovement == g.lastMovement
    ensures g'.result == g.result
  {
    g.(postId := postId)
  }

  /** `ValidMovements` delegates to the board. */
  function ValidMovements(g: Game): (moves: seq<int>)
    requires WellFormed(g.board)
    ensures forall c :: c in moves <==> 1 <= c <= Columns && g.board[c - 1][0] == Empty
  {
    ValidMoves.GetValidMovements(g.board)
  }

  /** `Move` of game.go:40-60. The board rejects the column, or the turn flips, the column is
      recorded, and a winner found on the new board replaces the result; failing that a
      drawn board sets `OutcomeDraw`; failing that the result stays. The current result is
      never consulted. */
  function Move(g: Game, movement: int): (r: Result<Game, MoveError>)
    requires WellFormed(g.board)
    ensures r.Err? <==> !(1 <= movement <= Columns && g.board[movement - 1][0] == Empty)
    ensures r.Err? ==> r.error == (if 1 <= movement <= Columns then ColumnFull else NotSuchColumn)
    ensures r.Ok? ==> Boards.Move(g.board, movement, g.turn) == Ok(r.value.board)
    ensures r.Ok? ==> r.value.turn == NextTurn(g.turn) && r.value.lastMovement == movement
    ensures r.Ok? ==> SameIdentity(g, r.value)
    ensures r.Ok? ==> r.value.result == (if HasWon(r.value.board) != Empty then HasWon(r.value.board)
                                         else if CheckDraw(r.value.board) then OutcomeDraw
                                         else g.result)
  {
    match Boards.Move(g.board, movement, g.turn)
    case Err(e) => Err(e)
    case Ok(b) =>
      var result :=
        if HasFinished(b) then
          var drawn := if CheckDraw(b) then OutcomeDraw else g.result;
          var wonUser := HasWon(b);
          if wonUser != Empty then wonUser else drawn
        else g.result;
      Ok(g.(board := b, turn := NextTurn(g.turn), lastMovement := movement, result := result))
  }

  /** `Resign` of game.go:62-73: a marker's resignation stores that marker negated, whatever
      the result was before; any other argument is refused. */
  function Resign(g: Game, player: int): (r: Result<Game, ResignError>)
    ensures r.Ok? <==> IsMarker(player)
    ensures r.Ok? ==> r.value == g.(result := -player)
  {
    match player
    case 1 => Ok(g.(result := OutcomePlayer1Resign))
    case 2 => Ok(g.(result := OutcomePlayer2Resign))
    case _ => Err(PlayerNotPlaying)
  }

  // ---------------------------------------------------------------------------
  // Properties of the state machine

  /** The outcome after an accepted move in terms of the board: a four-in-a-row makes the
      owner of the first winning start the result, even on a full board; otherwise a full
      top row makes it a draw; otherwise the previous result stays. */
  lemma MoveOutcome(g: Game, movement: int)
    requires WellFormed(g.board) && Move(g, movement).Ok?
    ensures var g' := Move(g, movement).value;
      && (FourInARow(g'.board) ==>
            exists i, j :: FirstWinStart(g'.board, i, j) && g'.result == g'.board[i][j] != Empty)
      && (!FourInARow(g'.board) && Full(g'.board) ==> g'.result == OutcomeDraw)
      && (!FourInARow(g'.board) && !CheckDraw(g'.board) ==> g'.result == g.result)
  {
  }

  /** A win overrides a draw: a winning move that also fills the board on a valid game is
      recorded as that player's win, never as a draw. */
  lemma WinOverridesDraw(g: Game, movement: int)
    requires Valid(g) && Move(g, movement).Ok?
    requires FourInARow(Move(g, movement).value.board)
    ensures Move(g, movement).value.result in {OutcomePlayer1Win, OutcomePlayer2Win}
  {
    var b := Move(g, movement).value.board;
    MoveKeepsMarkers(g.board, movement, g.turn);
    HasWonIsMarker(b);
  }

  /** Moves are accepted whatever the outcome: a finished or resigned game still takes any
      column the board accepts, and the result does not decide what happens to the board. */
  lemma MoveIgnoresOutcome(g: Game, movement: int, anyResult: int)
    requires WellFormed(g.board)
    ensures Move(g.(result := anyResult), movement).Ok? == Move(g, movement).Ok?
    ensures Move(g, movement).Ok? ==>
      Move(g.(result := anyResult), movement).value.board == Move(g, movement).value.board
    ensures g.result != OutcomeNoOutcome && movement in ValidMovements(g) ==> Move(g, movement).Ok?
  {
  }

  /** On a valid game the turn strictly alternates between the two seats. */
  lemma TurnAlternates(g: Game, movement: int)
    requires Valid(g) && Move(g, movement).Ok?
    ensures var g' := Move(g, movement).value;
      && g'.turn != g.turn && IsMarker(g'.turn)
      && GetTurnPlayer(g') == (if g.turn == Player1 then g.player2 else g.player1)
  {
  }

  /** `Move` and `Resign` keep a game valid, and a move adds exactly one piece. */
  lemma MovePreservesValid(g: Game, movement: int)
    requires Valid(g) && Move(g, movement).Ok?
    ensures Valid(Move(g, movement).value)
    ensures Pieces(Move(g, movement).value.board) == Pieces(g.board) + 1
  {
    var b := Move(g, movement).value.board;
    MoveKeepsGravity(g.board, movement, g.turn);
    MoveKeepsMarkers(g.board, movement, g.turn);
    HasWonIsMarker(b);
  }

  lemma ResignPreservesValid(g: Game, player: int)
    requires Valid(g) && Resign(g, player).Ok?
    ensures Valid(Resign(g, player).value)
    ensures SameIdentity(g, Resign(g, player).value)
    ensures Resign(g, player).value.board == g.board
  {
  }

  /** A line of another player's colour cannot run through the piece just placed, so it was
      already on the board before the move. */
  lemma LineAvoidsPlacedCell(b: Board, b': Board, c: int, row: int, player: int,
                             i: int, j: int, p: int, dx: int, dy: int)
    requires WellFormed(b) && PlacedOnly(b, b', c, row, player)
    requires InBounds(i, j) && b'[i][j] == p && p != player && Line(b', i, j, p, dx, dy)
    ensures b[i][j] == p && Line(b, i, j, p, dx, dy)
  {
  }

  /** A move that completes the first four-in-a-row wins it for the player who moved: every
      line on the new board that was not on the old one runs through the piece just placed. */
  lemma WinnerIsMover(g: Game, movement: int)
    requires Valid(g) && Move(g, movement).Ok?
    requires !FourInARow(g.board) && FourInARow(Move(g, movement).value.board)
    ensures Move(g, movement).value.result == g.turn
  {
    var b := g.board;
    var b' := Move(g, movement).value.board;
    var c := movement - 1;
    var row := LandingRow(b[c]);
    assert PlacedOnly(b, b', c, row, g.turn);
    MoveOutcome(g, movement);
    var i, j :| FirstWinStart(b', i, j) && Move(g, movement).value.result == b'[i][j] != Empty;
    var p := b'[i][j];
    var dx, dy :| IsDirection(dx, dy) && Line(b', i, j, p, dx, dy);
    if p != g.turn {
      LineAvoidsPlacedCell(b, b', c, row, g.turn, i, j, p, dx, dy);
      assert WinStart(b, i, j);
    }
  }
}

=== FILE: images.dfy ===
/** The board renderer of server/connect4/image.go, as the list of drawing primitives it
    hands to the SVG canvas between `Start` and `End`. */
module Images {
  import opened Constants
  import opened Boards
  import opened Decimal
  import opened Results

  /** The geometry of image.go:13-19, worked out; `Geometry` relates each value to the
      square size it derives from. */
  const SquareSize := 80
  const BoardWidth := 560
  const BoardHeight := 560
  const Margin := 8
  const Radius := 32
  const TextSize := 72

  /** The colours of image.go:21-25; `Black` is both the text colour and the marker fill. */
  datatype Color = BoardColor | Player1Color | Player2Color | EmptyColor | Black

  function Hex(c: Color): (h: string)
    ensures |h| == 7 && h[0] == '#'
  {
    match c
    case BoardColor => "#1161ea"
    case Player1Color => "#ffe042"
    case Player2Color => "#fe1614"
    case EmptyColor => "#ffffff"
    case Black => "#000000"
  }

  /** A drawing primitive. Rectangles and circles are filled with one colour; a text is the
      numeral `number` in the label style. */
  datatype Shape =
    | Rect(x: int, y: int, width: int, height: int, fill: Color)
    | Circle(cx: int, cy: int, radius: int, fill: Color)
    | Text(x: int, y: int, number: nat)

  /** The derivations of image.go:14-19 in Go's truncating integer arithmetic. */
  lemma Geometry()
    ensures BoardWidth == SquareSize * Columns && BoardHeight == SquareSize * (Rows + 1)
    ensures Margin == SquareSize / 10 && Radius == SquareSize / 2 - Margin
    ensures TextSize == SquareSize - Margin
  {
  }

  const LabelStyle := "dominant-baseline:middle;text-anchor:middle;fill:" + Hex(Black)
                      + ";font-size: " + Itoa(TextSize) + "px"

  /** The style attribute the canvas writes for a primitive. */
  function Style(s: Shape): string {
    match s
    case Rect(_, _, _, _, fill) => "fill: " + Hex(fill)
    case Circle(_, _, _, fill) => "fill: " + Hex(fill)
    case Text(_, _, _) => LabelStyle
  }

  /** The character data of a text primitive. */
  function Content(s: Shape): string
    requires s.Text?
  {
    Itoa(s.number)
  }

  /** The fill of the disc for a cell: any value other than the two markers is drawn empty. */
  function CellColor(player: int): (c: Color)
    ensures c == EmptyColor <==> !IsMarker(player)
  {
    if player == 1 then Player1Color else if player == 2 then Player2Color else EmptyColor
  }

  /** The centre coordinate of square `k`. */
  function Centre(k: int): (c: int)
    ensures c == k * SquareSize + SquareSize / 2
  {
    80 * k + 40
  }

  const Background := Rect(0, 0, BoardWidth, BoardHeight, BoardColor)

  /** The renderer indexes `board[i][j]` for every column below 7 and row below 6. */
  predicate Covers(board: seq<seq<int>>) {
    |board| >= Columns && forall i | 0 <= i < Columns :: |board[i]| >= Rows
  }

  function Disc(board: seq<seq<int>>, i: int, j: int): Shape
    requires Covers(board) && InBounds(i, j)
  {
    Circle(Centre(i), Centre(j), Radius, CellColor(board[i][j]))
  }

  function Mark(i: int, j: int): Shape {
    Circle(Centre(i), Centre(j), Radius / 2, Black)
  }

  function Label(i: int): Shape
    requires 0 <= i
  {
    Text(Centre(i), Centre(Rows), i + 1)
  }

  /** The first occupied row of column `i` among the six drawn rows, or 6 if there is none. */
  function TopPiece(board: seq<seq<int>>, i: int): int
    requires Covers(board) && 0 <= i < Columns
  {
    FirstOccupied(board[i][..Rows], 0)
  }

  /** The inner loop of `EncodeBoard` over the cells of column `i` from row `j` on;
      `highlighted` says whether the last-move marker was already drawn. */
  function CellsFrom(board: seq<seq<int>>, lastMovement: int, i: int, j: int, highlighted: bool): seq<Shape>
    requires Covers(board) && 0 <= i < Columns && 0 <= j <= Rows
    decreases Rows - j
  {
    if j == Rows then []
    else
      var player := board[i][j];
      [Disc(board, i, j)] +
        if i == lastMovement - 1 && !highlighted && player != 0
        then [Mark(i, j)] + CellsFrom(board, lastMovement, i, j + 1, true)
        else CellsFrom(board, lastMovement, i, j + 1, highlighted)
  }

  /** The outer loop of `EncodeBoard` from column `i` on: each column's cells, then its label. */
  function ColumnsFrom(board: seq<seq<int>>, lastMovement: int, i: int): seq<Shape>
    requires Covers(board) && 0 <= i <= Columns
    decreases Columns - i
  {
    if i == Columns then []
    else CellsFrom(board, lastMovement, i, 0, false) + [Label(i)] + ColumnsFrom(board, lastMovement, i + 1)
  }

  // ---------------------------------------------------------------------------
  // Kinds of primitive

  datatype Kind = BackgroundKind | DiscKind | MarkKind | LabelKind

  /** Discs and markers are both circles; they differ in radius. */
  function KindOf(s: Shape): Kind {
    match s
    case Rect(_, _, _, _, _) => BackgroundKind
    case Circle(_, _, r, _) => if r == Radius then DiscKind else MarkKind
    case Text(_, _, _) => LabelKind
  }

  /** The primitives of `s` of one kind, in order. */
  function Filter(s: seq<Shape>, k: Kind): (r: seq<Shape>)
    ensures |r| <= |s|
  {
    if s == [] then [] else (if KindOf(s[0]) == k then [s[0]] else []) + Filter(s[1..], k)
  }

  lemma {:induction false} FilterConcat(a: seq<Shape>, b: seq<Shape>, k: Kind)
    ensures Filter(a + b, k) == Filter(a, k) + Filter(b, k)
  {
    if a != [] {
      var x, t := a[0], a[1..];
      assert a == [x] + t;
      assert a + b == [x] + (t + b);
      FilterCons(x, t + b, k);
      FilterCons(x, t, k);
      FilterConcat(t, b, k);
    } else {
      assert a + b == b;
    }
  }

  lemma FilterCons(x: Shape, t: seq<Shape>, k: Kind)
    ensures Filter([x] + t, k) == (if KindOf(x) == k then [x] else []) + Filter(t, k)
  {
    assert ([x] + t)[1..] == t;
  }

  /** The marker goes on the first occupied of the rows `j..5` of column `i`, when `i` is the
      last-move column and no marker was drawn above row `j`. */
  function MarksFrom(board: seq<seq<int>>, lastMovement: int, i: int, j: int, highlighted: bool): seq<Shape>
    requires Covers(board) && 0 <= i < Columns && 0 <= j <= Rows
  {
    var top := FirstOccupied(board[i][..Rows], j);
    if i == lastMovement - 1 && !highlighted && top < Rows then [Mark(i, top)] else []
  }

  /** The discs of column `i` from row `j` down, top first. */
  function DiscsFrom(board: seq<seq<int>>, i: int, j: int): (d: seq<Shape>)
    requires Covers(board) && 0 <= i < Columns && 0 <= j <= Rows
    ensures |d| == Rows - j
    decreases Rows - j
  {
    if j == Rows then [] else [Disc(board, i, j)] + DiscsFrom(board, i, j + 1)
  }

  lemma {:induction false} DiscsFromIndex(board: seq<seq<int>>, i: int, j: int, k: int)
    requires Covers(board) && 0 <= i < Columns && 0 <= j <= k < Rows
    ensures DiscsFrom(board, i, j)[k - j] == Disc(board, i, k)
    decreases k - j
  {
    if j < k {
      DiscsFromIndex(board, i, j + 1, k);
    }
  }

  lemma {:induction false} CellsFromDiscs(board: seq<seq<int>>, lastMovement: int, i: int, j: int, highlighted: bool)
    requires Covers(board) && 0 <= i < Columns && 0 <= j <= Rows
    ensures Filter(CellsFrom(board, lastMovement, i, j, highlighted), DiscKind) == DiscsFrom(board, i, j)
    decreases Rows - j
  {
    if j < Rows {
      var mark := i == lastMovement - 1 && !highlighted && board[i][j] != 0;
      var next := if mark then true else highlighted;
      var tail := CellsFrom(board, lastMovement, i, j + 1, next);
      CellsFromDiscs(board, lastMovement, i, j + 1, next);
      FilterCons(Disc(board, i, j), if mark then [Mark(i, j)] + tail else tail, DiscKind);
      if mark {
        FilterCons(Mark(i, j), tail, DiscKind);
      }
    }
  }

  lemma {:induction false} CellsFromMarks(board: seq<seq<int>>, lastMovement: int, i: int, j: int, highlighted: bool)
    requires Covers(board) && 0 <= i < Columns && 0 <= j <= Rows
    ensures Filter(CellsFrom(board, lastMovement, i, j, highlighted), MarkKind) == MarksFrom(board, lastMovement, i, j, highlighted)
    ensures |CellsFrom(board, lastMovement, i, j, highlighted)| == Rows - j + |MarksFrom(board, lastMovement, i, j, highlighted)|
    decreases Rows - j
  {
    if j < Rows {
      var col := board[i][..Rows];
      assert col[j] == board[i][j];
      var mark := i == lastMovement - 1 && !highlighted && board[i][j] != 0;
      var next := if mark then true else highlighted;
      var tail := CellsFrom(board, lastMovement, i, j + 1, next);
      CellsFromMarks(board, lastMovement, i, j + 1, next);
      FilterCons(Disc(board, i, j), if mark then [Mark(i, j)] + tail else tail, MarkKind);
      if mark {
        FilterCons(Mark(i, j), tail, MarkKind);
      }
    }
  }

  lemma {:induction false} CellsFromOthers(board: seq<seq<int>>, lastMovement: int, i: int, j: int, highlighted: bool)
    requires Covers(board) && 0 <= i < Columns && 0 <= j <= Rows
    ensures Filter(CellsFrom(board, lastMovement, i, j, highlighted), LabelKind) == []
    ensures Filter(CellsFrom(board, lastMovement, i, j, highlighted), BackgroundKind) == []
    decreases Rows - j
  {
    if j < Rows {
      var mark := i == lastMovement - 1 && !highlighted && board[i][j] != 0;
      var next := if mark then true else highlighted;
      var tail := CellsFrom(board, lastMovement, i, j + 1, next);
      CellsFromOthers(board, lastMovement, i, j + 1, next);
      FilterCons(Disc(board, i, j), if mark then [Mark(i, j)] + tail else tail, LabelKind);
      FilterCons(Disc(board, i, j), if mark then [Mark(i, j)] + tail else tail, BackgroundKind);
      if mark {
        FilterCons(Mark(i, j), tail, LabelKind);
        FilterCons(Mark(i, j), tail, BackgroundKind);
      }
    }
  }

  /** The last-move marker of the columns from `i` on. */
  function ExpectedMarks(board: seq<seq<int>>, lastMovement: int, i: int): seq<Shape>
    requires Covers(board) && 0 <= i <= Columns
  {
    if i <= lastMovement - 1 < Columns && TopPiece(board, lastMovement - 1) < Rows
    then [Mark(lastMovement - 1, TopPiece(board, lastMovement - 1))] else []
  }

  lemma FilterSplit(a: seq<Shape>, x: Shape, c: seq<Shape>, k: Kind)
    ensures Filter(a + [x] + c, k) == Filter(a, k) + (if KindOf(x) == k then [x] else []) + Filter(c, k)
  {
    assert a + [x] + c == a + ([x] + c);
    FilterConcat(a, [x] + c, k);
    FilterCons(x, c, k);
  }

  /** One column: its cells, then its label. */
  lemma ColumnSplit(board: seq<seq<int>>, lastMovement: int, i: int, k: Kind)
    requires Covers(board) && 0 <= i < Columns
    ensures Filter(ColumnsFrom(board, lastMovement, i), k)
         == Filter(CellsFrom(board, lastMovement, i, 0, false), k)
          + (if KindOf(Label(i)) == k then [Label(i)] else [])
          + Filter(ColumnsFrom(board, lastMovement, i + 1), k)
  {
    FilterSplit(CellsFrom(board, lastMovement, i, 0, false), Label(i), ColumnsFrom(board, lastMovement, i + 1), k);
  }

  /** The discs of the columns from `i` on, column by column, each top first. */
  function AllDiscs(board: seq<seq<int>>, i: int): (d: seq<Shape>)
    requires Covers(board) && 0 <= i <= Columns
    ensures |d| == 6 * (Columns - i)
    decreases Columns - i
  {
    if i == Columns then [] else DiscsFrom(board, i, 0) + AllDiscs(board, i + 1)
  }

  lemma {:induction false} AllDiscsIndex(board: seq<seq<int>>, i: int, i': int, j: int)
    requires Covers(board) && 0 <= i <= i' < Columns && 0 <= j < Rows
    ensures AllDiscs(board, i)[6 * (i' - i) + j] == Disc(board, i', j)
    decreases i' - i
  {
    var head := DiscsFrom(board, i, 0);
    var rest := AllDiscs(board, i + 1);
    assert AllDiscs(board, i) == head + rest;
    if i == i' {
      DiscsFromIndex(board, i, 0, j);
    } else {
      AllDiscsIndex(board, i + 1, i', j);
      assert (head + rest)[6 * (i' - i) + j] == rest[6 * (i' - (i + 1)) + j];
    }
  }

  lemma {:induction false} ColumnsFromDiscs(board: seq<seq<int>>, lastMovement: int, i: int)
    requires Covers(board) && 0 <= i <= Columns
    ensures Filter(ColumnsFrom(board, lastMovement, i), DiscKind) == AllDiscs(board, i)
    decreases Columns - i
  {
    if i < Columns {
      ColumnSplit(board, lastMovement, i, DiscKind);
      assert KindOf(Label(i)) == LabelKind;
      CellsFromDiscs(board, lastMovement, i, 0, false);
      ColumnsFromDiscs(board, lastMovement, i + 1);
    }
  }

  /** The labels of the columns from `i` on. */
  function AllLabels(i: int): (l: seq<Shape>)
    requires 0 <= i <= Columns
    ensures |l| == Columns - i
    decreases Columns - i
  {
    if i == Columns then [] else [Label(i)] + AllLabels(i + 1)
  }

  lemma {:induction false} AllLabelsIndex(i: int, i': int)
    requires 0 <= i <= i' < Columns
    ensures AllLabels(i)[i' - i] == Label(i')
    decreases i' - i
  {
    if i < i' {
      AllLabelsIndex(i + 1, i');
      assert AllLabels(i) == [Label(i)] + AllLabels(i + 1);
    }
  }

  lemma {:induction false} ColumnsFromLabels(board: seq<seq<int>>, lastMovement: int, i: int)
    requires Covers(board) && 0 <= i <= Columns
    ensures Filter(ColumnsFrom(board, lastMovement, i), LabelKind) == AllLabels(i)
    decreases Columns - i
  {
    if i < Columns {
      ColumnSplit(board, lastMovement, i, LabelKind);
      CellsFromOthers(board, lastMovement, i, 0, false);
      ColumnsFromLabels(board, lastMovement, i + 1);
    }
  }

  lemma {:induction false} ColumnsFromNoBackground(board: seq<seq<int>>, lastMovement: int, i: int)
    requires Covers(board) && 0 <= i <= Columns
    ensures Filter(ColumnsFrom(board, lastMovement, i), BackgroundKind) == []
    decreases Columns - i
  {
    if i < Columns {
      ColumnSplit(board, lastMovement, i, BackgroundKind);
      assert KindOf(Label(i)) == LabelKind;
      CellsFromOthers(board, lastMovement, i, 0, false);
      ColumnsFromNoBackground(board, lastMovement, i + 1);
    }
  }

  /** Column `i` contributes its own marker, if any, in front of those of the later columns. */
  lemma MarksStep(board: seq<seq<int>>, lastMovement: int, i: int)
    requires Covers(board) && 0 <= i < Columns
    ensures MarksFrom(board, lastMovement, i, 0, false) + ExpectedMarks(board, lastMovement, i + 1)
         == ExpectedMarks(board, lastMovement, i)
  {
    var here := MarksFrom(board, lastMovement, i, 0, false);
    var rest := ExpectedMarks(board, lastMovement, i + 1);
    if i == lastMovement - 1 {
      assert rest == [];
      assert here == ExpectedMarks(board, lastMovement, i);
      assert here + rest == here;
    } else {
      assert here == [];
      assert rest == ExpectedMarks(board, lastMovement, i);
      assert here + rest == rest;
    }
  }

  lemma {:induction false} ColumnsFromMarks(board: seq<seq<int>>, lastMovement: int, i: int)
    requires Covers(board) && 0 <= i <= Columns
    ensures Filter(ColumnsFrom(board, lastMovement, i), MarkKind) == ExpectedMarks(board, lastMovement, i)
    decreases Columns - i
  {
    if i < Columns {
      ColumnSplit(board, lastMovement, i, MarkKind);
      CellsFromMarks(board, lastMovement, i, 0, false);
      ColumnsFromMarks(board, lastMovement, i + 1);
      assert KindOf(Label(i)) == LabelKind;
      MarksStep(board, lastMovement, i);
    }
  }

  lemma {:induction false} ColumnsFromLength(board: seq<seq<int>>, lastMovement: int, i: int)
    requires Covers(board) && 0 <= i <= Columns
    ensures |ColumnsFrom(board, lastMovement, i)| == 7 * (Columns - i) + |ExpectedMarks(board, lastMovement, i)|
    decreases Columns - i
  {
    if i < Columns {
      CellsFromMarks(board, lastMovement, i, 0, false);
      ColumnsFromLength(board, lastMovement, i + 1);
      var here := MarksFrom(board, lastMovement, i, 0, false);
      var rest := ExpectedMarks(board, lastMovement, i + 1);
      assert |ColumnsFrom(board, lastMovement, i)|
          == |CellsFrom(board, lastMovement, i, 0, false)| + 1 + |ColumnsFrom(board, lastMovement, i + 1)|;
      if i == lastMovement - 1 {
        assert rest == [];
        assert here == ExpectedMarks(board, lastMovement, i);
      } else {
        assert here == [];
        assert rest == ExpectedMarks(board, lastMovement, i);
      }
    }
  }

  /** `d` with `m` inserted at position `n`. */
  function Inserted(d: seq<Shape>, n: int, m: Shape): (r: seq<Shape>)
    requires 0 <= n <= |d|
    ensures |r| == |d| + 1 && r[n] == m
    ensures forall k | 0 <= k < n :: r[k] == d[k]
    ensures forall k | n <= k < |d| :: r[k + 1] == d[k]
  {
    d[..n] + [m] + d[n..]
  }

  lemma InsertedCons(x: Shape, tail: seq<Shape>, n: int, m: Shape)
    requires 0 <= n <= |tail|
    ensures [x] + Inserted(tail, n, m) == Inserted([x] + tail, n + 1, m)
  {
    assert ([x] + tail)[..n + 1] == [x] + tail[..n];
    assert ([x] + tail)[n + 1..] == tail[n..];
  }

  /** One step of the inner loop. */
  lemma CellsFromStep(board: seq<seq<int>>, lastMovement: int, i: int, j: int, highlighted: bool)
    requires Covers(board) && 0 <= i < Columns && 0 <= j < Rows
    ensures var mark := i == lastMovement - 1 && !highlighted && board[i][j] != 0;
      CellsFrom(board, lastMovement, i, j, highlighted)
        == [Disc(board, i, j)] + if mark then [Mark(i, j)] + CellsFrom(board, lastMovement, i, j + 1, true)
                                 else CellsFrom(board, lastMovement, i, j + 1, highlighted)
  {
  }

  /** The marker of the column from row `j` on, as the row it covers, or `Rows` for none. */
  function MarkRow(board: seq<seq<int>>, lastMovement: int, i: int, j: int, highlighted: bool): (t: int)
    requires Covers(board) && 0 <= i < Columns && 0 <= j <= Rows
    ensures j <= t <= Rows
  {
    var t := FirstOccupied(board[i][..Rows], j);
    if i == lastMovement - 1 && !highlighted then t else Rows
  }

  lemma MarkRowStep(board: seq<seq<int>>, lastMovement: int, i: int, j: int, highlighted: bool)
    requires Covers(board) && 0 <= i < Columns && 0 <= j < Rows
    requires !(i == lastMovement - 1 && !highlighted && board[i][j] != 0)
    ensures MarkRow(board, lastMovement, i, j, highlighted) == MarkRow(board, lastMovement, i, j + 1, highlighted)
  {
    assert board[i][..Rows][j] == board[i][j];
  }

  /** Once the marker is drawn, the rest of the column is its discs alone. */
  lemma {:induction false} CellsFromHighlighted(board: seq<seq<int>>, lastMovement: int, i: int, j: int)
    requires Covers(board) && 0 <= i < Columns && 0 <= j <= Rows
    ensures CellsFrom(board, lastMovement, i, j, true) == DiscsFrom(board, i, j)
    decreases Rows - j
  {
    if j < Rows {
      CellsFromHighlighted(board, lastMovement, i, j + 1);
    }
  }

  /** The marker is drawn on the first occupied cell, right after its disc. */
  lemma CellsFromMarkHere(board: seq<seq<int>>, lastMovement: int, i: int, j: int, highlighted: bool)
    requires Covers(board) && 0 <= i < Columns && 0 <= j < Rows
    requires i == lastMovement - 1 && !highlighted && board[i][j] != 0
    ensures CellsFrom(board, lastMovement, i, j, highlighted) == SplitCells(board, lastMovement, i, j, highlighted)
  {
    assert board[i][..Rows][j] == board[i][j];
    assert MarkRow(board, lastMovement, i, j, highlighted) == j;
    var x := Disc(board, i, j);
    var tail := DiscsFrom(board, i, j + 1);
    assert DiscsFrom(board, i, j) == [x] + tail;
    CellsFromStep(board, lastMovement, i, j, highlighted);
    CellsFromHighlighted(board, lastMovement, i, j + 1);
    MarkAfterFirst(x, tail, Mark(i, j));
  }

  lemma MarkAfterFirst(x: Shape, tail: seq<Shape>, m: Shape)
    ensures [x] + ([m] + tail) == Inserted([x] + tail, 1, m)
  {
    assert ([x] + tail)[..1] == [x] && ([x] + tail)[1..] == tail;
  }

  /** The column's discs from row `j` on, with the marker inserted after the disc it covers. */
  function SplitCells(board: seq<seq<int>>, lastMovement: int, i: int, j: int, highlighted: bool): seq<Shape>
    requires Covers(board) && 0 <= i < Columns && 0 <= j <= Rows
  {
    var t := MarkRow(board, lastMovement, i, j, highlighted);
    if t < Rows then Inserted(DiscsFrom(board, i, j), t + 1 - j, Mark(i, t)) else DiscsFrom(board, i, j)
  }

  /** A cell that is not marked adds its disc in front of the rest of the column. */
  lemma CellsFromPass(board: seq<seq<int>>, lastMovement: int, i: int, j: int, highlighted: bool)
    requires Covers(board) && 0 <= i < Columns && 0 <= j < Rows
    requires !(i == lastMovement - 1 && !highlighted && board[i][j] != 0)
    requires CellsFrom(board, lastMovement, i, j + 1, highlighted) == SplitCells(board, lastMovement, i, j + 1, highlighted)
    ensures CellsFrom(board, lastMovement, i, j, highlighted) == SplitCells(board, lastMovement, i, j, highlighted)
  {
    var x := Disc(board, i, j);
    var tail := DiscsFrom(board, i, j + 1);
    var rest := CellsFrom(board, lastMovement, i, j + 1, highlighted);
    var t := MarkRow(board, lastMovement, i, j + 1, highlighted);
    assert DiscsFrom(board, i, j) == [x] + tail;
    CellsFromStep(board, lastMovement, i, j, highlighted);
    MarkRowStep(board, lastMovement, i, j, highlighted);
    PrependCell(x, tail, rest, t - j, Mark(i, t), t < Rows);
  }

  /** Putting a disc in front of the rest of a column moves the marker one place on. */
  lemma PrependCell(x: Shape, tail: seq<Shape>, rest: seq<Shape>, n: int, m: Shape, marked: bool)
    requires marked ==> 0 <= n <= |tail|
    requires rest == if marked then Inserted(tail, n, m) else tail
    ensures [x] + rest == if marked then Inserted([x] + tail, n + 1, m) else [x] + tail
  {
    if marked {
      InsertedCons(x, tail, n, m);
    }
  }

  /** The cells of column `i` from row `j` on are its discs, with the marker inserted right
      after the disc of the first occupied row when the column is still to be highlighted. */
  lemma {:induction false} CellsFromSplit(board: seq<seq<int>>, lastMovement: int, i: int, j: int, highlighted: bool)
    requires Covers(board) && 0 <= i < Columns && 0 <= j <= Rows
    ensures CellsFrom(board, lastMovement, i, j, highlighted) == SplitCells(board, lastMovement, i, j, highlighted)
    decreases Rows - j
  {
    if j == Rows {
      assert MarkRow(board, lastMovement, i, j, highlighted) == Rows;
      assert SplitCells(board, lastMovement, i, j, highlighted) == [];
    } else {
      if i == lastMovement - 1 && !highlighted && board[i][j] != 0 {
        CellsFromMarkHere(board, lastMovement, i, j, highlighted);
      } else {
        CellsFromSplit(board, lastMovement, i, j + 1, highlighted);
        CellsFromPass(board, lastMovement, i, j, highlighted);
      }
    }
  }

  /** `EncodeBoard` of image.go:28-60: the background, then for each column its six cell
      discs top to bottom, at most one last-move marker among them, and the column's label. */
  function EncodeBoard(board: seq<seq<int>>, lastMovement: int): (shapes: seq<Shape>)
    requires Covers(board)
    ensures 0 < |shapes| && shapes[0] == Background
  {
    [Background] + ColumnsFrom(board, lastMovement, 0)
  }

  /** Every kind but the background is found among the columns. */
  lemma EncodeBoardFilter(board: seq<seq<int>>, lastMovement: int, k: Kind)
    requires Covers(board) && k != BackgroundKind
    ensures Filter(EncodeBoard(board, lastMovement), k) == Filter(ColumnsFrom(board, lastMovement, 0), k)
  {
    FilterCons(Background, ColumnsFrom(board, lastMovement, 0), k);
  }

  /** The board rectangle is drawn first, and it is the only rectangle. */
  lemma EncodeBoardBackground(board: seq<seq<int>>, lastMovement: int)
    requires Covers(board)
    ensures Filter(EncodeBoard(board, lastMovement), BackgroundKind) == [Background]
    ensures Background == Rect(0, 0, 560, 560, BoardColor)
  {
    ColumnsFromNoBackground(board, lastMovement, 0);
    FilterCons(Background, ColumnsFrom(board, lastMovement, 0), BackgroundKind);
  }

  lemma DiscsOfColumns(board: seq<seq<int>>, lastMovement: int)
    requires Covers(board)
    ensures Filter(EncodeBoard(board, lastMovement), DiscKind) == AllDiscs(board, 0)
  {
    EncodeBoardFilter(board, lastMovement, DiscKind);
    ColumnsFromDiscs(board, lastMovement, 0);
  }

  lemma AllDiscsValue(board: seq<seq<int>>, d: seq<Shape>)
    requires Covers(board) && d == AllDiscs(board, 0)
    ensures |d| == 42
    ensures forall i, j | 0 <= i < Columns && 0 <= j < Rows ::
      d[6 * i + j] == Circle(80 * i + 40, 80 * j + 40, 32, CellColor(board[i][j]))
  {
    forall i, j | 0 <= i < Columns && 0 <= j < Rows
      ensures d[6 * i + j] == Circle(80 * i + 40, 80 * j + 40, 32, CellColor(board[i][j]))
    {
      AllDiscsIndex(board, 0, i, j);
    }
  }

  /** One disc per cell, column by column and top to bottom, centred on its square and filled
      with the colour of the cell's marker. */
  lemma EncodeBoardDiscs(board: seq<seq<int>>, lastMovement: int)
    requires Covers(board)
    ensures var d := Filter(EncodeBoard(board, lastMovement), DiscKind);
      && |d| == 42
      && forall i, j | 0 <= i < Columns && 0 <= j < Rows ::
           d[6 * i + j] == Circle(80 * i + 40, 80 * j + 40, 32, CellColor(board[i][j]))
  {
    DiscsOfColumns(board, lastMovement);
    AllDiscsValue(board, Filter(EncodeBoard(board, lastMovement), DiscKind));
  }

  lemma LabelsOfColumns(board: seq<seq<int>>, lastMovement: int)
    requires Covers(board)
    ensures Filter(EncodeBoard(board, lastMovement), LabelKind) == AllLabels(0)
  {
    EncodeBoardFilter(board, lastMovement, LabelKind);
    ColumnsFromLabels(board, lastMovement, 0);
  }

  lemma AllLabelsValue(l: seq<Shape>)
    requires l == AllLabels(0)
    ensures |l| == Columns
    ensures forall i | 0 <= i < Columns :: l[i] == Text(80 * i + 40, 520, i + 1)
  {
    forall i | 0 <= i < Columns
      ensures l[i] == Text(80 * i + 40, 520, i + 1)
    {
      AllLabelsIndex(0, i);
    }
  }

  /** One label per column under the board, showing the column's number counted from 1. */
  lemma EncodeBoardLabels(board: seq<seq<int>>, lastMovement: int)
    requires Covers(board)
    ensures var l := Filter(EncodeBoard(board, lastMovement), LabelKind);
      && |l| == Columns
      && forall i | 0 <= i < Columns :: l[i] == Text(80 * i + 40, 520, i + 1)
  {
    LabelsOfColumns(board, lastMovement);
    AllLabelsValue(Filter(EncodeBoard(board, lastMovement), LabelKind));
  }

  lemma MarksOfColumns(board: seq<seq<int>>, lastMovement: int)
    requires Covers(board)
    ensures Filter(EncodeBoard(board, lastMovement), MarkKind) == ExpectedMarks(board, lastMovement, 0)
  {
    EncodeBoardFilter(board, lastMovement, MarkKind);
    ColumnsFromMarks(board, lastMovement, 0);
  }

  lemma ExpectedMarksValue(board: seq<seq<int>>, lastMovement: int, marks: seq<Shape>)
    requires Covers(board) && marks == ExpectedMarks(board, lastMovement, 0)
    ensures marks ==
      if 1 <= lastMovement <= Columns && TopPiece(board, lastMovement - 1) < Rows
      then [Circle(80 * (lastMovement - 1) + 40, 80 * TopPiece(board, lastMovement - 1) + 40, 16, Black)]
      else []
  {
  }

  /** At most one marker: on the topmost piece of the last-move column, and none when that
      column is out of range or holds no piece. */
  lemma EncodeBoardMarks(board: seq<seq<int>>, lastMovement: int)
    requires Covers(board)
    ensures Filter(EncodeBoard(board, lastMovement), MarkKind) ==
      if 1 <= lastMovement <= Columns && TopPiece(board, lastMovement - 1) < Rows
      then [Circle(80 * (lastMovement - 1) + 40, 80 * TopPiece(board, lastMovement - 1) + 40, 16, Black)]
      else []
  {
    MarksOfColumns(board, lastMovement);
    ExpectedMarksValue(board, lastMovement, Filter(EncodeBoard(board, lastMovement), MarkKind));
  }

  /** Nothing else is drawn: the background, 42 discs, 7 labels and the markers. */
  lemma EncodeBoardLength(board: seq<seq<int>>, lastMovement: int)
    requires Covers(board)
    ensures |EncodeBoard(board, lastMovement)| == 50 + |Filter(EncodeBoard(board, lastMovement), MarkKind)|
  {
    var columns := ColumnsFrom(board, lastMovement, 0);
    ColumnsFromLength(board, lastMovement, 0);
    ColumnsFromMarks(board, lastMovement, 0);
    FilterCons(Background, columns, MarkKind);
  }

  /** The style strings the canvas writes: the board and the cells are filled with the
      colours of image.go:21-24, the marker with black, and every label uses one text style. */
  lemma Styles(board: seq<seq<int>>, i: int, j: int)
    requires Covers(board) && InBounds(i, j)
    ensures Style(Background) == "fill: #1161ea"
    ensures board[i][j] == Player1 ==> Style(Disc(board, i, j)) == "fill: #ffe042"
    ensures board[i][j] == Player2 ==> Style(Disc(board, i, j)) == "fill: #fe1614"
    ensures !IsMarker(board[i][j]) ==> Style(Disc(board, i, j)) == "fill: #ffffff"
    ensures Style(Mark(i, j)) == "fill: #000000"
  {
  }

  /** The topmost piece of the column just played is the one placed. */
  lemma TopPieceAfterMove(b: Board, column: int, player: int, b': Board)
    requires WellFormed(b) && player != Empty && Boards.Move(b, column, player) == Ok(b')
    ensures 1 <= column <= Columns && b[column - 1][0] == Empty
    ensures Covers(b') && TopPiece(b', column - 1) == LandingRow(b[column - 1]) < Rows
  {
    var c := column - 1;
    var row := LandingRow(b[c]);
    assert b'[c][..Rows] == b'[c];
    assert b'[c][row] != Empty;
    assert forall r | 0 <= r < row :: b'[c][r] == Empty;
  }

  /** Right after a move, the marker sits on the piece just placed, in the row it landed in. */
  lemma HighlightMarksLastPiece(b: Board, column: int, player: int, b': Board, row: int)
    requires WellFormed(b) && player != Empty && Boards.Move(b, column, player) == Ok(b')
    requires row == LandingRow(b[column - 1])
    ensures Covers(b')
    ensures Filter(EncodeBoard(b', column), MarkKind) == [Circle(80 * (column - 1) + 40, 80 * row + 40, 16, Black)]
  {
    TopPieceAfterMove(b, column, player, b');
    MarkOnTopPiece(b', column, row);
  }

  lemma MarkOnTopPiece(board: seq<seq<int>>, column: int, row: int)
    requires Covers(board) && 1 <= column <= Columns && TopPiece(board, column - 1) == row < Rows
    ensures Filter(EncodeBoard(board, column), MarkKind) == [Circle(80 * (column - 1) + 40, 80 * row + 40, 16, Black)]
  {
    MarksOfColumns(board, column);
    ExpectedMarksValue(board, column, Filter(EncodeBoard(board, column), MarkKind));
  }

  // ---------------------------------------------------------------------------
  // Drawing order across kinds

  /** Column `i` carries the last-move marker: it is the last-move column and holds a piece. */
  predicate Marked(board: seq<seq<int>>, lastMovement: int, i: int)
    requires Covers(board) && 0 <= i < Columns
  {
    i == lastMovement - 1 && TopPiece(board, i) < Rows
  }

  lemma DiscsOfColumn(board: seq<seq<int>>, i: int)
    requires Covers(board) && 0 <= i < Columns
    ensures forall j | 0 <= j < Rows :: DiscsFrom(board, i, 0)[j] == Disc(board, i, j)
  {
    forall j | 0 <= j < Rows ensures DiscsFrom(board, i, 0)[j] == Disc(board, i, j) {
      DiscsFromIndex(board, i, 0, j);
    }
  }

  /** What the outer loop draws for column `i`, by position: the discs top to bottom, the
      marker right after the disc of the topmost piece when the column is marked, and the
      column's label last. */
  function ColumnBlock(board: seq<seq<int>>, lastMovement: int, i: int): (block: seq<Shape>)
    requires Covers(board) && 0 <= i < Columns
    ensures |block| == if Marked(board, lastMovement, i) then 8 else 7
    ensures block[|block| - 1] == Label(i)
    ensures !Marked(board, lastMovement, i) ==> forall j | 0 <= j < Rows :: block[j] == Disc(board, i, j)
    ensures Marked(board, lastMovement, i) ==>
      var t := TopPiece(board, i);
      && (forall j | 0 <= j <= t :: block[j] == Disc(board, i, j))
      && block[t + 1] == Mark(i, t)
      && (forall j | t < j < Rows :: block[j + 1] == Disc(board, i, j))
  {
    DiscsOfColumn(board, i);
    var d := DiscsFrom(board, i, 0);
    var t := TopPiece(board, i);
    assert SplitCells(board, lastMovement, i, 0, false)
        == if Marked(board, lastMovement, i) then Inserted(d, t + 1, Mark(i, t)) else d;
    SplitCells(board, lastMovement, i, 0, false) + [Label(i)]
  }

  /** The outer loop draws column `i` in full before any primitive of column `i + 1`. */
  lemma ColumnsFromBlocks(board: seq<seq<int>>, lastMovement: int, i: int)
    requires Covers(board) && 0 <= i < Columns
    ensures ColumnsFrom(board, lastMovement, i)
         == ColumnBlock(board, lastMovement, i) + ColumnsFrom(board, lastMovement, i + 1)
  {
    CellsFromSplit(board, lastMovement, i, 0, false);
  }

  /** The drawing order of `EncodeBoard`: the background, then the seven column blocks from
      left to right; so every marker follows the disc it covers and precedes the next disc,
      and label `i` follows the primitives of column `i` and precedes those of column `i + 1`. */
  lemma EncodeBoardOrder(board: seq<seq<int>>, lastMovement: int)
    requires Covers(board)
    ensures EncodeBoard(board, lastMovement)
         == [Background] + (ColumnBlock(board, lastMovement, 0) + (ColumnBlock(board, lastMovement, 1)
          + (ColumnBlock(board, lastMovement, 2) + (ColumnBlock(board, lastMovement, 3)
          + (ColumnBlock(board, lastMovement, 4) + (ColumnBlock(board, lastMovement, 5)
          + ColumnBlock(board, lastMovement, 6)))))))
  {
    ColumnsFromBlocks(board, lastMovement, 0);
    ColumnsFromBlocks(board, lastMovement, 1);
    ColumnsFromBlocks(board, lastMovement, 2);
    ColumnsFromBlocks(board, lastMovement, 3);
    ColumnsFromBlocks(board, lastMovement, 4);
    ColumnsFromBlocks(board, lastMovement, 5);
    ColumnsFromBlocks(board, lastMovement, 6);
    assert ColumnsFrom(board, lastMovement, 7) == [];
    assert ColumnBlock(board, lastMovement, 6) + [] == ColumnBlock(board, lastMovement, 6);
  }

  /** Before any move there is no marker. */
  lemma NoMarkerWithoutMove(board: seq<seq<int>>)
    requires Covers(board)
    ensures Filter(EncodeBoard(board, 0), MarkKind) == []
  {
    EncodeBoardMarks(board, 0);
  }
}

=== FILE: results.dfy ===
/** Failure-carrying values used across the model in place of Go's `(T, error)` returns. */
module Results {

  /** Either a value or the error the Go code would return (or the panic it would raise). */
  datatype Result<+T, +E> = Ok(value: T) | Err(error: E)

  /** An optional value, standing for a Go nil value or a missing key. */
  datatype Option<+T> = None | Some(value: T)
}

=== FILE: valid_moves.dfy ===
/** `GetValidMovements` of server/connect4/valid.go: the columns a move may still go into. */
module ValidMoves {
  import opened Results
  import opened Constants
  import opened Boards

  /** Column `c` (1-based) exists and its top cell is free. */
  predicate Open(b: Board, c: int)
    requires WellFormed(b)
  {
    1 <= c <= Columns && b[c - 1][0] == Empty
  }

  /** The loop of `GetValidMovements` from column index `k` on. */
  function ValidFrom(b: Board, k: nat): (out: seq<int>)
    requires WellFormed(b) && k <= Columns
    ensures forall n | 0 <= n < |out| :: k + 1 <= out[n] <= Columns
    ensures forall n, m | 0 <= n < m < |out| :: out[n] < out[m]
    ensures forall c :: c in out <==> k + 1 <= c && Open(b, c)
    ensures |out| <= Columns - k
    ensures out == [] <==> forall i | k <= i < Columns :: b[i][0] != Empty
    decreases Columns - k
  {
    if k == Columns then []
    else (if b[k][0] == Empty then [k + 1] else []) + ValidFrom(b, k + 1)
  }

  /** The 1-based columns whose top cell is free, strictly ascending. */
  function GetValidMovements(b: Board): (out: seq<int>)
    requires WellFormed(b)
    ensures forall n, m | 0 <= n < m < |out| :: out[n] < out[m]
    ensures forall c :: c in out <==> Open(b, c)
    ensures forall n | 0 <= n < |out| :: 1 <= out[n] <= Columns
    ensures |out| <= Columns
    ensures out == [] <==> forall i | 0 <= i < Columns :: b[i][0] != Empty
  {
    ValidFrom(b, 0)
  }

  /** A column is listed exactly when the board accepts a move into it, whoever moves. */
  lemma ValidMovementsAccepted(b: Board, column: int, player: int)
    requires WellFormed(b)
    ensures column in GetValidMovements(b) <==> Move(b, column, player).Ok?
    ensures 1 <= column <= Columns && column !in GetValidMovements(b) ==> Move(b, column, player) == Err(ColumnFull)
  {
  }

  /** The list is empty exactly when the draw test holds. */
  lemma NoValidMovementIffDraw(b: Board)
    requires WellFormed(b)
    ensures GetValidMovements(b) == [] <==> CheckDraw(b)
  {
  }

  /** All seven columns are open on a fresh board. */
  lemma NewBoardAllColumnsValid()
    ensures GetValidMovements(NewBoard()) == [1, 2, 3, 4, 5, 6, 7]
  {
    var b := NewBoard();
    assert ValidFrom(b, 7) == [];
    assert ValidFrom(b, 6) == [7];
    assert ValidFrom(b, 5) == [6, 7];
    assert ValidFrom(b, 4) == [5, 6, 7];
    assert ValidFrom(b, 3) == [4, 5, 6, 7];
    assert ValidFrom(b, 2) == [3, 4, 5, 6, 7];
    assert ValidFrom(b, 1) == [2, 3, 4, 5, 6, 7];
  }
}
